=== FILE: README.md ===
# code-bee contest and proctoring logic in Dafny

This project models the decision logic of the code-bee front end. code-bee is a
coding-practice site with proctored, timed contests. The model covers:

- **Proctoring session** (`Proctoring`). The infraction counter with its limit of
  three. The warning and disqualification texts. The paste-length check. In
  contest mode, the disqualify request that ends the session on the first
  counted infraction. The copy/cut/paste shortcut blocker.
- **Contest coding page** (`ContestSession`). Loading the contest and deriving the
  user's solved set. Choosing where to go after an accepted submission: the first
  unsolved problem in contest order, or the results page. The millisecond
  countdown and its `HH:MM:SS` text. Which screen is shown: loading, error,
  instructions, disqualified, or the coding view.
- **Contest lobby** (`Lobby`). The seconds countdown, the heading, host detection,
  and the Start and Enter buttons.
- **Problem list** (`ProblemList`). Search, difficulty and tag filters. Sorting by
  title or difficulty in either direction, and the sort toggle. Page count, page
  slices, the page-change guard, and the page reset when a filter changes.
- **Contest creation** (`CreateContest`). Toggling problems in the selection by
  database id. Form validation, the create request and its outcome.
- **Results page** (`Results`). The leaderboard sorted by score, ranks, and the
  host marker.

Shared modules:

- `Text`: JavaScript's `toString` for naturals, `padStart(2, '0')`,
  `toLowerCase`, `includes`, `trim`, and `<` on strings. String `<` is
  lexicographic by character, and a proper prefix comes first; JavaScript
  compares UTF-16 code units, which agrees with this on the Basic Multilingual
  Plane (see "Left out").
- `Seqs`: `Array.prototype.filter`, and a stable insertion sort that stands for
  `Array.prototype.sort`. The sort is stable since ES2019.
- `Clock`: the `HH:MM:SS` formatter, with a parser that reads it back.
- `Contests`: the contest document and its lookups.
- `Optional`: absent fields.

Every operation is a pure function over immutable datatypes. Network answers,
the clock and the user's input are parameters.

Two behaviours of the code are worth knowing when reading the contracts.

- Both countdowns treat the contest's `startTime` as its end. So a contest that
  is already live, with a start time in the past, starts its countdown at zero.
  `ContestSession.InitialTimeLeft` and `Lobby.RefreshTimeLeft` state this
  exactly.
- In contest mode, the disqualify request is sent for every counted infraction.
  When it does not throw, the session is disqualified, and the message still
  reads "You have 2 warning(s) left". `ContestSession.FirstContestInfractionScreen`
  states this.

Sorting by difficulty compares the words as strings, so `Easy`, `Hard` and
`Medium` come in that order.

## Model

| member | source | states |
|---|---|---|
| Text.Decimal | frontend/src/pages/contest/ContestLobby.jsx:86 | `toString` of a natural is a non-empty digit string, with one digit exactly below 10 and two below 100, and no leading zero unless it is `0` itself |
| Text.DecimalOfParseDecimal | frontend/src/pages/contest/ContestLobby.jsx:86 | every digit string without a superfluous leading zero is the `toString` of its value |
| Text.ParseDecimalOfDecimal | frontend/src/pages/contest/ContestLobby.jsx:86 | the decimal text of `n` reads back as `n` |
| Text.Pad2 | frontend/src/pages/codingPage/ContestCodingPage.jsx:266 | `padStart(2, '0')` of a field gives at least two digits, exactly two below 100, that still denote the field's value; it starts with `0` exactly below 10, and from 10 on it is the plain `toString` |
| Text.Pad2OfParseDecimal | frontend/src/pages/codingPage/ContestCodingPage.jsx:266 | every two-digit string is the padded text of its value |
| Text.LowerChar | frontend/src/pages/problems/Problems.jsx:176 | a capital `A`..`Z` becomes the small letter at the same alphabet position; every other character is unchanged; no capital is left |
| Text.Lower | frontend/src/pages/problems/Problems.jsx:176 | lower-casing keeps the length and maps every character on its own |
| Text.LowerEqualIffCaseVariants | frontend/src/pages/problems/Problems.jsx:176 | two texts lower-case to the same text exactly when they have the same length and differ only in the case of ASCII letters |
| Text.IncludesIffOccurs | frontend/src/pages/problems/Problems.jsx:176 | `includes` holds exactly when the needle occurs at some position of the text |
| Text.Includes | frontend/src/pages/problems/Problems.jsx:176 | every text includes the empty text, and a text includes nothing longer than itself |
| Text.Trim | frontend/src/pages/contest/CreateContest.jsx:30 | `trim` gives a slice of the input with no white space at either end, and what it cuts off on each side is all white space; it is empty exactly when the input is all white space |
| Text.LexLess | frontend/src/pages/problems/Problems.jsx:195 | a string is never `<` itself, a proper prefix is `<` the longer string, and when the first characters differ they alone decide |
| Text.LexLessFirstDifference | frontend/src/pages/problems/Problems.jsx:195-200 | `a < b` exactly when, at the first position where they part, `a` has ended while `b` goes on, or `a` holds the smaller character |
| Text.LexLessWitness | frontend/src/pages/problems/Problems.jsx:195 | whenever `a < b` there is such a first position of difference |
| Text.FirstDifferenceIsLess | frontend/src/pages/problems/Problems.jsx:195 | a first position of difference in favour of `a` makes `a < b` |
| Text.LexLessAsymmetric | frontend/src/pages/problems/Problems.jsx:195-200 | two strings are never each `<` the other |
| Text.SharedPrefixTitlesOrder | frontend/src/pages/problems/Problems.jsx:16-28 | of the mock titles `Check Palindrome` and `Check for Anagrams`, the first sorts first because a capital letter is below a small one |
| Text.DifficultyWordsOrder | frontend/src/pages/problems/Problems.jsx:195-200 | as strings, `Easy` < `Hard` < `Medium`, and not the other way round |
| Text.LexLessIrreflexive | frontend/src/pages/problems/Problems.jsx:195 | no string is `<` itself |
| Text.LexLessTransitive | frontend/src/pages/problems/Problems.jsx:195-200 | `<` on strings is transitive |
| Text.LexLessTotal | frontend/src/pages/problems/Problems.jsx:195-200 | of two different strings one is `<` the other, so the comparator returns 0 only for equal keys |
| Seqs.Filter | frontend/src/pages/problems/Problems.jsx:175 | `filter` keeps only passing items and never lengthens the list |
| Seqs.FilterCount | frontend/src/pages/codingPage/ContestCodingPage.jsx:170 | every passing item is kept as often as it occurs, every failing one is dropped |
| Seqs.FilterIsSubsequence | frontend/src/pages/problems/Problems.jsx:175-187 | `filter` keeps the input order |
| Seqs.FilterHead | frontend/src/pages/codingPage/ContestCodingPage.jsx:170-174 | the first item of a filtered list is the first passing item of the input |
| Seqs.FilterAppend | frontend/src/pages/contest/CreateContest.jsx:66-67 | filtering a concatenation filters each part |
| Seqs.FilterKeepsAll | frontend/src/pages/contest/CreateContest.jsx:66 | filtering a list whose items all pass gives the list back |
| Seqs.Sort | frontend/src/pages/contest/ContestResultsPage.jsx:52 | sorting is a permutation of its input |
| Seqs.SortCorrect | frontend/src/pages/problems/Problems.jsx:192-202 | under a strict weak order the sorted list is ordered, and items that compare equal keep their input order |
| Clock.Split | frontend/src/pages/contest/ContestLobby.jsx:83-85 | minutes and seconds are below 60 and `h*3600 + m*60 + s` is the total |
| Clock.FormatSeconds | frontend/src/pages/contest/ContestLobby.jsx:82-87 | the text has at least eight characters with colons before the last two fields |
| Clock.FormatSecondsRoundTrip | frontend/src/pages/contest/ContestLobby.jsx:82-87 | the `HH:MM:SS` text reads back as exactly the number of seconds |
| Clock.SplitUnique | frontend/src/pages/contest/ContestLobby.jsx:83-85 | hours, minutes below 60 and seconds below 60 are the only split of the total they make |
| Clock.ParseClockOnlyFormat | frontend/src/pages/contest/ContestLobby.jsx:82-87 | every text accepted as a countdown is exactly the formatter's text for its value, so the formatter and the reader are inverse |
| Clock.FormatMillis | frontend/src/pages/codingPage/ContestCodingPage.jsx:261-267 | the millisecond formatter gives an `HH:MM:SS` text that reads back as the milliseconds rounded down to whole seconds |
| Contests.IsHost | frontend/src/pages/contest/ContestLobby.jsx:93 | the user is the host exactly when both ids are present and equal, or both absent |
| Seqs.FindIndex | frontend/src/pages/codingPage/ContestCodingPage.jsx:164 | the position `find` stops at passes the test, and no earlier position does |
| Contests.FindParticipant | frontend/src/pages/codingPage/ContestCodingPage.jsx:164 | the participant found is the first one with the user's id, and none is found exactly when no participant has it |
| Contests.ProblemsOf | frontend/src/pages/codingPage/ContestCodingPage.jsx:212 | a missing problem list reads as empty |
| Proctoring.Reason | frontend/src/context/ProctoringContext.jsx:112 | only a tab switch reads "switching tabs"; every other kind, pastes included, reads "exiting fullscreen" |
| Proctoring.HandleInfraction | frontend/src/context/ProctoringContext.jsx:88-121 | nothing changes when inactive or disqualified; otherwise the count goes up by one; reaching 3 disqualifies with the disqualification text; below 3 the warning gives `3 - count` left; a request is sent exactly in contest mode, and it disqualifies unless it throws |
| Proctoring.HandlePaste | frontend/src/context/ProctoringContext.jsx:133-139 | a paste of at most 50 characters, or one outside a running session, changes nothing; a longer one is exactly one paste infraction |
| Proctoring.StartProctoring | frontend/src/context/ProctoringContext.jsx:128-131 | starting makes the session active and changes nothing else |
| Proctoring.KeySuppressed | frontend/src/context/ProctoringContext.jsx:29-33 | a suppressed key is one of the single characters `c`, `v`, `x`, and nothing is suppressed while inactive or without Ctrl or Meta |
| Proctoring.BlockedShortcuts | frontend/src/context/ProctoringContext.jsx:29-46 | exactly Ctrl or Meta with `c`, `v` or `x` is blocked, and only while active; the context menu is blocked exactly while active |
| Proctoring.InitialValid | frontend/src/context/ProctoringContext.jsx:22-25 | the initial session satisfies the session invariant |
| Proctoring.ApplyPreservesValid | frontend/src/context/ProctoringContext.jsx:105-139 | every event keeps the count at most 3, disqualified at 3, and an inactive session untouched |
| Proctoring.RunMonotone | frontend/src/context/ProctoringContext.jsx:108-116 | over any event sequence the count never decreases, and activity and disqualification are never withdrawn |
| Proctoring.DisqualifiedIsTerminal | frontend/src/context/ProctoringContext.jsx:106 | a disqualified session ignores every later event and sends no request |
| Proctoring.PracticeDisqualifiesAtLimit | frontend/src/context/ProctoringContext.jsx:99-101 | outside a contest, a session is disqualified exactly when its count is 3 |
| Proctoring.ActiveIffStarted | frontend/src/context/ProctoringContext.jsx:128-131 | a session is active exactly when it was already active or a start event occurred |
| Proctoring.PracticeSendsNoRequests | frontend/src/context/ProctoringContext.jsx:89-101 | outside a contest no disqualify request is ever sent |
| Proctoring.ContestDisqualifiesOnFirst | frontend/src/context/ProctoringContext.jsx:89-95 | in a contest whose requests go through, the first counted infraction disqualifies, the count stays at most 1, and one request is sent per counted infraction |
| ContestSession.SolvedIds | frontend/src/pages/codingPage/ContestCodingPage.jsx:164-165 | the solved set is the first matching participant's solved ids, or empty when the user is not a participant |
| ContestSession.MongoIds | frontend/src/pages/codingPage/ContestCodingPage.jsx:169 | the ids are the problems' `_id`s, position by position |
| ContestSession.UnsolvedIds | frontend/src/pages/codingPage/ContestCodingPage.jsx:170 | the unsolved ids are exactly the contest ids not in the solved set, in contest order |
| ContestSession.FindProblem | frontend/src/pages/codingPage/ContestCodingPage.jsx:175 | a problem is found exactly when its id is among the contest's ids, and it is the first with that id |
| ContestSession.NextTarget | frontend/src/pages/codingPage/ContestCodingPage.jsx:169-183 | the results page exactly when every problem is solved; otherwise a contest problem that is unsolved, with every problem before it solved |
| ContestSession.HandleSuccessfulSubmission | frontend/src/pages/codingPage/ContestCodingPage.jsx:148-187 | nothing happens when the contest id is missing or empty, or there are no problems; a failed refresh gives the manual fallback and no navigation; otherwise the progress is the refreshed solved set and the target is chosen from it |
| ContestSession.AdvanceNeverRevisits | frontend/src/pages/codingPage/ContestCodingPage.jsx:148-183 | with a non-empty contest id, problems and a successful refresh the page always advances; the target problem is never marked solved, and the results page means every problem is marked solved |
| ContestSession.NextTargetExample | frontend/src/pages/codingPage/ContestCodingPage.jsx:169-183 | `[A, B, C]` with `A` solved leads to `B`; with all solved, to the results page |
| ContestSession.InitialTimeLeft | frontend/src/pages/codingPage/ContestCodingPage.jsx:214-218 | a live contest with a start time gets `max(0, startTime - now)`; otherwise the time left is unchanged |
| ContestSession.LoadContest | frontend/src/pages/codingPage/ContestCodingPage.jsx:192-231 | without a contest id (missing or empty), or when the fetch fails, the page shows the matching error and no contest; on success it holds the contest, its problems, the user's solved set, and a time left that is `max(0, startTime - now)` for a live contest with a start time and 0 otherwise |
| ContestSession.Tick | frontend/src/pages/codingPage/ContestCodingPage.jsx:253-259 | a tick lowers a positive time left but never below zero, and leaves a non-positive one alone |
| ContestSession.TicksClamp | frontend/src/pages/codingPage/ContestCodingPage.jsx:253-259 | after `n` ticks a non-negative time is `max(0, ms - 1000 n)` |
| ContestSession.TimeLeftText | frontend/src/pages/codingPage/ContestCodingPage.jsx:300 | the countdown text shows the whole seconds left |
| ContestSession.ScreenOf | frontend/src/pages/codingPage/ContestCodingPage.jsx:289-378 | the loading screen shows exactly while loading; the error screen exactly when the error text is present and not empty, and it shows that text; the missing-contest screen exactly when there is no such error and no contest; the coding view exactly when the contest is loaded and the session is active and not disqualified; the instructions exactly when it is loaded and not started; the disqualified screen shows the session's message; the banner shows exactly when there is a message |
| ContestSession.EmptyErrorShowsMissing | frontend/src/pages/codingPage/ContestCodingPage.jsx:290-291 | a load that throws with an empty message stores an empty error, which `if (error)` passes over: the page says the contest could not be loaded |
| ContestSession.DisqualifiedStaysOut | frontend/src/pages/codingPage/ContestCodingPage.jsx:351-361 | once disqualified, no sequence of events brings the coding view back |
| ContestSession.FirstContestInfractionScreen | frontend/src/context/ProctoringContext.jsx:89-120 | in a contest the first infraction ends the session on a screen that still announces two warnings left |
| Lobby.RefreshTimeLeft | frontend/src/pages/contest/ContestLobby.jsx:30-34 | a live contest gets the whole seconds to its start time rounded down and never negative; any other status leaves the time unchanged |
| Lobby.Tick | frontend/src/pages/contest/ContestLobby.jsx:52-57 | a tick subtracts one second only while time is left and the contest is live |
| Lobby.TicksStopAtZero | frontend/src/pages/contest/ContestLobby.jsx:52-57 | a live countdown from a non-negative value stops at exactly zero and never goes below it |
| Lobby.TicksFrozenUnlessLive | frontend/src/pages/contest/ContestLobby.jsx:53 | the countdown does not move unless the contest is live |
| Lobby.Heading | frontend/src/pages/contest/ContestLobby.jsx:102-104 | a live contest's heading reads back as the seconds left; otherwise it is "Lobby" |
| Lobby.StartOffered | frontend/src/pages/contest/ContestLobby.jsx:137 | the Start button is offered exactly to the host of an upcoming contest |
| Lobby.Enter | frontend/src/pages/contest/ContestLobby.jsx:143-147 | the Enter button is hidden unless live, disabled exactly when live without problems, and otherwise opens the first problem in the contest |
| ProblemList.ApplyFilters | frontend/src/pages/problems/Problems.jsx:171-188 | the filtered list is no longer than the input and every problem in it is from the input and passes every active filter |
| ProblemList.FiltersAreOneFilter | frontend/src/pages/problems/Problems.jsx:171-188 | the three filters in a row are one filter by the conjunction of the active conditions |
| ProblemList.FilteredProblems | frontend/src/pages/problems/Problems.jsx:171-188 | the filtered list is a subsequence of the problems, holds exactly the problems that pass every active filter, and keeps each as often as it occurs; with all filters off it is the whole list |
| ProblemList.BeforeIsStrictWeakOrder | frontend/src/pages/problems/Problems.jsx:192-202 | the comparator in either direction is a strict weak order |
| ProblemList.FilterAndSort | frontend/src/pages/problems/Problems.jsx:190-205 | the listed problems are the filtered ones, each as often, and all pass every active filter |
| ProblemList.SortedProblems | frontend/src/pages/problems/Problems.jsx:190-205 | the listed problems are a permutation of the filtered ones, ordered by key in the chosen direction, with equal keys in filtered order |
| ProblemList.HandleSort | frontend/src/pages/problems/Problems.jsx:209-215 | the new key is the clicked one; the direction is descending exactly when the same key was ascending |
| ProblemList.HandleSortTwice | frontend/src/pages/problems/Problems.jsx:209-215 | clicking the current column twice restores the configuration |
| ProblemList.TotalPages | frontend/src/pages/problems/Problems.jsx:218 | the page count is the least `t` with `t * rows >= n`, and it is zero exactly for an empty list |
| ProblemList.PageOf | frontend/src/pages/problems/Problems.jsx:219-222 | a page has at most `rows` items, is empty past the end, is full when it lies inside the list, and item `i` is list item `(page-1)*rows + i` |
| ProblemList.FirstPagesArePrefix | frontend/src/pages/problems/Problems.jsx:219-222 | pages `1..k` together are the list's first `k * rows` items |
| ProblemList.PagesCoverList | frontend/src/pages/problems/Problems.jsx:218-222 | pages `1..totalPages` together are exactly the list |
| ProblemList.HandlePageChange | frontend/src/pages/problems/Problems.jsx:224-228 | the page moves exactly when the request is between 1 and the page count |
| ProblemList.Act | frontend/src/pages/problems/Problems.jsx:209-233 | a filter or page-size action sets that value and resets the page to 1 exactly when the value changed; sorting toggles the direction as `handleSort` does and keeps the page; paging moves to the requested page exactly when it is between 1 and the page count; each action leaves the other fields alone |
| ProblemList.InitialViewInRange | frontend/src/pages/problems/Problems.jsx:162-167 | the initial state, page 1 of the unfiltered list, is in range |
| ProblemList.ActKeepsPageInRange | frontend/src/pages/problems/Problems.jsx:224-233 | after any action the page is 1 or a real page of the filtered list |
| ProblemList.ShownNonEmpty | frontend/src/pages/problems/Problems.jsx:218-222 | in range, the shown page is empty only when nothing passes the filters |
| CreateContest.Toggle | frontend/src/pages/contest/CreateContest.jsx:63-69 | selection of the id flips; an absent problem is appended; a present one is removed into a shorter subsequence |
| CreateContest.ToggleKeepsOthers | frontend/src/pages/contest/CreateContest.jsx:65-67 | the entries with other ids are the same, in the same order |
| CreateContest.ToggleTwice | frontend/src/pages/contest/CreateContest.jsx:63-69 | toggling an unselected problem twice restores the selection |
| CreateContest.FilterKeepsDistinct | frontend/src/pages/contest/CreateContest.jsx:66 | removing entries keeps the ids distinct |
| CreateContest.ToggleKeepsDistinct | frontend/src/pages/contest/CreateContest.jsx:65-67 | a selection without duplicate ids keeps none after a toggle |
| CreateContest.HandleCreate | frontend/src/pages/contest/CreateContest.jsx:29-48 | a blank name or an empty selection is refused before any request; otherwise the request carries the untrimmed name, the selected ids in selection order, and the duration |
| CreateContest.ButtonEnabled | frontend/src/pages/contest/CreateContest.jsx:117 | the button is enabled exactly when nothing is loading and the form would be sent |
| CreateContest.AfterCreate | frontend/src/pages/contest/CreateContest.jsx:51-58 | only a created contest navigates, to its lobby; a refusal shows the server's message or the default text; a throw shows its message |
| Results.HigherScoreIsStrictWeakOrder | frontend/src/pages/contest/ContestResultsPage.jsx:52 | the score comparator is a strict weak order |
| Results.Leaderboard | frontend/src/pages/contest/ContestResultsPage.jsx:52 | the leaderboard holds the participants, each as often as stored |
| Results.LeaderboardCorrect | frontend/src/pages/contest/ContestResultsPage.jsx:52 | the leaderboard is a permutation of the participants, scores never increase down it, and equal scores keep their stored order |
| Results.Rows | frontend/src/pages/contest/ContestResultsPage.jsx:67 | line `i` has rank `i + 1`, the `i`-th leader's name and score, and a crown exactly when that leader is the host |
| Results.RanksAreOneToN | frontend/src/pages/contest/ContestResultsPage.jsx:67 | the ranks shown are exactly `1..n`, each on one line |
| Results.FirstPlaceHasTopScore | frontend/src/pages/contest/ContestResultsPage.jsx:52-67 | rank 1 goes to a participant nobody outscored |
| Results.ViewerIsHost | frontend/src/pages/contest/ContestResultsPage.jsx:53 | the viewer is the host exactly when the ids agree |

## Left out

- Network requests: every `fetch` becomes its outcome, passed as a parameter. This covers contest, problem and leaderboard loads, disqualify, start, create and submit. It also covers the token lookup and the JSON bodies.
- Timers: `setInterval`, `setTimeout` and the 5-second lobby re-fetch are not modelled. Only the effect of one tick is.
- The clock: `Date.now` is an integer parameter. Date parsing of `startTime` is not modelled: the start time is already an integer timestamp.
- Browser hooks: the tab-focus and fullscreen detectors are not modelled. The kinds they report are event inputs. The fullscreen request in `startProctoring` and the webcam snapshot upload are not modelled either.
- React scheduling: events are handled one after another, each to completion. That includes the awaited disqualify request. Batched updates and stale closures are not modelled.
- Infraction logging outside a contest: `logInfractionToServer` has an empty branch there, so the model has no server effect.
- The contest-wide submit (`handleSubmitContest`) is not modelled. It is a confirmation dialog followed by one request and a navigation.
- The per-problem fetch and its error on the coding page are not modelled. Neither is the sidebar leaderboard.
- Text.Lower: lower-cases ASCII letters only. JavaScript's `toLowerCase` also maps letters outside ASCII.
- Text.LexLess: compares Unicode code points, where JavaScript's `<` compares UTF-16 code units. The two orders differ only when one key holds a character above U+FFFF and the other a character from U+E000 to U+FFFF at the same position.
- Contests.IsHost: a `hostId` of JSON `null` and one missing from the document are both absent. With no user loaded, the code compares `undefined === null`, which is false, but the model reports the viewer as host.
- Proctoring.HandlePaste: measures the pasted text in Unicode characters, where ProctoringContext.jsx:135 uses `.length` in UTF-16 code units. A character above U+FFFF counts once here and twice in the code, so 26 such characters exceed the limit of 50 there but not here.
- Lobby.RefreshTimeLeft: requires a start time for a live contest. Without one, the code computes `NaN`, and that is not modelled.
- ProblemList.Act: models the page after the reset effect has run. It does not model the render in between, which still shows the old page number.
- The copy made before each sort is implicit: every function here returns a new value and leaves its input unchanged.
- Plagiarism analysis on the results page is commented out in the source, so it is not modelled.

=== FILE: clock.dfy ===
/**
 * The `HH:MM:SS` countdown text shared by the contest lobby (which counts
 * seconds) and the contest coding page (which counts milliseconds).
 */
module Clock {
  import opened Optional
  import opened Text

  /** The `h`, `m`, `s` fields of a duration in whole seconds. */
  datatype Fields = Fields(hours: nat, minutes: nat, seconds: nat)

  function Split(total: nat): (f: Fields)
    ensures f.minutes < 60 && f.seconds < 60
    ensures f.hours * 3600 + f.minutes * 60 + f.seconds == total
  {
    Fields(total / 3600, (total % 3600) / 60, total % 60)
  }

  /** The lobby's `formatTime(seconds)`: each field zero-padded to at least two digits. */
  function FormatSeconds(total: nat): (r: string)
    ensures |r| >= 8
    ensures r[|r| - 6] == ':' && r[|r| - 3] == ':'
  {
    var f := Split(total);
    Pad2(f.hours) + ":" + Pad2(f.minutes) + ":" + Pad2(f.seconds)
  }

  /** The coding page's `formatTime(milliseconds)`: whole seconds, rounded down, then as above. */
  function FormatMillis(ms: nat): (r: string)
    ensures |r| >= 8
    ensures ParseClock(r) == Some(ms / 1000)
  {
    FormatSecondsRoundTrip(ms / 1000);
    FormatSeconds(ms / 1000)
  }

  /**
   * Reads a countdown text back: the hours as two digits, or more without a
   * leading zero, then `:MM:SS` with minutes and seconds below 60; the number
   * of seconds it denotes. Any other text is not a countdown.
   */
  function ParseClock(s: string): Option<nat> {
    if |s| < 8 || s[|s| - 6] != ':' || s[|s| - 3] != ':' then None
    else ParseFields(s[..|s| - 6], s[|s| - 5..|s| - 3], s[|s| - 2..])
  }

  /** The value of the three fields between the colons, when each is well formed. */
  function ParseFields(h: string, m: string, sec: string): Option<nat> {
    if && AllDigits(h) && AllDigits(m) && AllDigits(sec)
       && |h| >= 1 && (|h| == 2 || h[0] != '0')
       && ParseDecimal(m) < 60 && ParseDecimal(sec) < 60
    then
      Some(ParseDecimal(h) * 3600 + ParseDecimal(m) * 60 + ParseDecimal(sec))
    else None
  }

  /** The countdown text shows exactly the remaining number of seconds. */
  lemma FormatSecondsRoundTrip(total: nat)
    ensures ParseClock(FormatSeconds(total)) == Some(total)
  {
    var f := Split(total);
    var hh, mm, ss := Pad2(f.hours), Pad2(f.minutes), Pad2(f.seconds);
    ParseClockOfParts(hh, mm, ss);
    assert ParseFields(hh, mm, ss) == Some(total);
  }

  /** A text of the countdown's shape is read field by field. */
  lemma ParseClockOfParts(hh: string, mm: string, ss: string)
    requires |hh| >= 2 && |mm| == 2 && |ss| == 2
    ensures ParseClock(hh + ":" + mm + ":" + ss) == ParseFields(hh, mm, ss)
  {
    var r := hh + ":" + mm + ":" + ss;
    assert r[..|r| - 6] == hh;
    assert r[|r| - 5..|r| - 3] == mm;
    assert r[|r| - 2..] == ss;
  }

  /** Every text `ParseClock` accepts is the one `FormatSeconds` writes for its value. */
  lemma ParseClockOnlyFormat(s: string, total: nat)
    requires ParseClock(s) == Some(total)
    ensures FormatSeconds(total) == s
  {
    var h, m, sec := s[..|s| - 6], s[|s| - 5..|s| - 3], s[|s| - 2..];
    var H, M, S := ParseDecimal(h), ParseDecimal(m), ParseDecimal(sec);
    assert total == H * 3600 + M * 60 + S && M < 60 && S < 60;
    assert Pad2(H) == h by {
      if |h| == 2 {
        Pad2OfParseDecimal(h);
      } else {
        DecimalOfParseDecimal(h);
      }
    }
    assert Pad2(M) == m by {
      Pad2OfParseDecimal(m);
    }
    assert Pad2(S) == sec by {
      Pad2OfParseDecimal(sec);
    }
    assert Split(total) == Fields(H, M, S) by {
      SplitUnique(H, M, S);
    }
    assert s == h + ":" + m + ":" + sec;
  }

  /** Fields with minutes and seconds below 60 are the split of the total they make. */
  lemma SplitUnique(h: nat, m: nat, s: nat)
    requires m < 60 && s < 60
    ensures Split(h * 3600 + m * 60 + s) == Fields(h, m, s)
  {
  }
}

=== FILE: contest_session.dfy ===
/**
 * The contest coding page of `ContestCodingPage.jsx`: loading the contest,
 * the solved set, where to go after an accepted submission, the millisecond
 * countdown, and which screen the page shows.
 */
module ContestSession {
  import opened Optional
  import opened Seqs
  import opened Contests
  import opened Clock
  import Proctoring

  // ---------------------------------------------------------------------------
  // Solved set and next problem
  // ---------------------------------------------------------------------------

  /** The user's `problemsSolved` ids, or none when the user is not a participant. */
  function SolvedIds(participants: seq<Participant>, userId: Id): (r: seq<Id>)
    ensures (forall i :: 0 <= i < |participants| ==> participants[i].userId != userId) ==> r == []
    ensures forall i :: 0 <= i < |participants| && participants[i].userId == userId ==>
      exists j :: 0 <= j <= i && participants[j].userId == userId && r == participants[j].problemsSolved
  {
    match FindParticipant(participants, userId)
    case Some(p) => p.problemsSolved
    case None => []
  }

  /** `contestProblems.map(p => p._id)`. */
  function MongoIds(problems: seq<ProblemRef>): (r: seq<Id>)
    ensures |r| == |problems|
    ensures forall i :: 0 <= i < |problems| ==> r[i] == problems[i].mongoId
  {
    seq(|problems|, i requires 0 <= i < |problems| => problems[i].mongoId)
  }

  /** The filter test for an id that is not in `solved`. */
  function NotIn(solved: seq<Id>): Id -> bool {
    id => id !in solved
  }

  /** The contest's problem ids not yet solved, in contest order. */
  function UnsolvedIds(problems: seq<ProblemRef>, solved: seq<Id>): (r: seq<Id>)
    ensures forall id :: id in r <==> id in MongoIds(problems) && id !in solved
    ensures IsSubsequence(r, MongoIds(problems))
  {
    var ids := MongoIds(problems);
    var r := Filter(ids, NotIn(solved));
    FilterIsSubsequence(ids, NotIn(solved));
    forall id ensures id in r <==> id in ids && id !in solved {
      FilterCount(ids, NotIn(solved), id);
    }
    r
  }

  function HasMongoId(mongoId: Id): ProblemRef -> bool {
    (p: ProblemRef) => p.mongoId == mongoId
  }

  /** `contestProblems.find(p => p._id === mongoId)`. */
  function FindProblem(problems: seq<ProblemRef>, mongoId: Id): (r: Option<ProblemRef>)
    ensures r.Some? <==> mongoId in MongoIds(problems)
    ensures r.Some? ==> r.value == problems[FindIndex(problems, HasMongoId(mongoId))]
  {
    var k := FindIndex(problems, HasMongoId(mongoId));
    assert k < |problems| ==> MongoIds(problems)[k] == mongoId;
    if k < |problems| then Some(problems[k]) else None
  }

  datatype Target = NextProblem(problem: ProblemRef) | ResultsPage

  /**
   * Where the page navigates once the solved set is known: the first unsolved
   * problem in contest order, or the results page when every problem is solved.
   */
  function NextTarget(problems: seq<ProblemRef>, solved: seq<Id>): (t: Target)
    ensures t.ResultsPage? <==> forall i :: 0 <= i < |problems| ==> problems[i].mongoId in solved
    ensures t.NextProblem? ==>
      exists k :: 0 <= k < |problems| && problems[k] == t.problem && t.problem.mongoId !in solved
        && forall i :: 0 <= i < k ==> problems[i].mongoId in solved
  {
    var ids := MongoIds(problems);
    var unsolved := UnsolvedIds(problems, solved);
    if |unsolved| > 0 then
      FilterHead(ids, NotIn(solved));
      var j :| 0 <= j < |ids| && ids[j] == unsolved[0] && NotIn(solved)(ids[j])
        && forall i :: 0 <= i < j ==> !NotIn(solved)(ids[i]);
      var k := FindIndex(problems, HasMongoId(unsolved[0]));
      assert k <= j;
      assert forall i :: 0 <= i < k ==> problems[i].mongoId in solved by {
        forall i | 0 <= i < k ensures problems[i].mongoId in solved {
          assert !NotIn(solved)(ids[i]);
        }
      }
      NextProblem(FindProblem(problems, unsolved[0]).value)
    else
      assert forall i :: 0 <= i < |problems| ==> problems[i].mongoId in solved by {
        forall i | 0 <= i < |problems| ensures problems[i].mongoId in solved {
          assert ids[i] == problems[i].mongoId;
        }
      }
      ResultsPage
  }

  // ---------------------------------------------------------------------------
  // After an accepted submission
  // ---------------------------------------------------------------------------

  /** The outcome of re-fetching the contest: it threw, answered with a status that is not ok, or returned the document. */
  datatype Refresh = RefreshThrew | RefreshNotOk | RefreshOk(latest: Contest)

  datatype PostSubmission =
    | Ignored                                      // no contest in the URL, or no problems
    | ManualFallback                               // the refresh failed: the "select it manually" alert, no navigation
    | Advance(progress: seq<Id>, target: Target)   // new `userProgress`, then navigate

  /** Whether the URL names a contest: the query parameter is present and, being a JavaScript string, not empty. */
  predicate HasContestId(contestId: Option<Id>) {
    contestId.Some? && contestId.value != ""
  }

  /** `handleSuccessfulSubmission`, given the URL's `contestId` and the page's `contestProblems`. */
  function HandleSuccessfulSubmission(contestId: Option<Id>, contestProblems: seq<ProblemRef>, userId: Id, refresh: Refresh)
    : (r: PostSubmission)
    ensures r.Ignored? <==> !HasContestId(contestId) || |contestProblems| == 0
    ensures r.ManualFallback? <==> !r.Ignored? && !refresh.RefreshOk?
    ensures r.Advance? ==>
      && refresh.RefreshOk?
      && r.progress == SolvedIds(refresh.latest.participants, userId)
      && r.target == NextTarget(contestProblems, r.progress)
  {
    if !HasContestId(contestId) || |contestProblems| == 0 then Ignored
    else
      match refresh
      case RefreshThrew => ManualFallback
      case RefreshNotOk => ManualFallback
      case RefreshOk(latest) =>
        var solved := SolvedIds(latest.participants, userId);
        Advance(solved, NextTarget(contestProblems, solved))
  }

  /** After advancing, the target is never a solved problem, and the results page means everything is solved. */
  lemma AdvanceNeverRevisits(contestId: Id, problems: seq<ProblemRef>, userId: Id, latest: Contest)
    requires contestId != "" && |problems| > 0
    ensures var r := HandleSuccessfulSubmission(Some(contestId), problems, userId, RefreshOk(latest));
      && r.Advance?
      && match r.target
        case NextProblem(p) => p in problems && !SolvedMark(r.progress, p)
        case ResultsPage => forall i :: 0 <= i < |problems| ==> SolvedMark(r.progress, problems[i])
  {
  }

  /** Problems `[A, B, C]` with `A` solved lead to `B`; with all three solved, to the results. */
  lemma NextTargetExample()
    ensures var a, b, c := ProblemRef("a", "1", "A"), ProblemRef("b", "2", "B"), ProblemRef("c", "3", "C");
      && NextTarget([a, b, c], ["a"]) == NextProblem(b)
      && NextTarget([a, b, c], ["a", "b", "c"]) == ResultsPage
  {
    var a, b, c := ProblemRef("a", "1", "A"), ProblemRef("b", "2", "B"), ProblemRef("c", "3", "C");
    var ps := [a, b, c];
    assert NextTarget(ps, ["a"]) == NextProblem(b) by {
      var solved := ["a"];
      assert "a" in solved && "b" !in solved && "c" !in solved;
      var t := NextTarget(ps, solved);
      assert !t.ResultsPage? by {
        assert ps[1].mongoId !in solved;
      }
      var k :| 0 <= k < |ps| && ps[k] == t.problem && t.problem.mongoId !in solved
        && forall i :: 0 <= i < k ==> ps[i].mongoId in solved;
      assert k == 1;
    }
    assert NextTarget(ps, ["a", "b", "c"]) == ResultsPage by {
      var all := ["a", "b", "c"];
      assert ps[0].mongoId == all[0] && ps[1].mongoId == all[1] && ps[2].mongoId == all[2];
    }
  }

  /** The sidebar's check mark: `userProgress.includes(p._id)`. */
  predicate SolvedMark(progress: seq<Id>, p: ProblemRef) {
    p.mongoId in progress
  }

  // ---------------------------------------------------------------------------
  // Loading and the countdown
  // ---------------------------------------------------------------------------

  /** The outcome of the first contest fetch. */
  datatype Load = LoadThrew(message: string) | LoadNotOk | LoadOk(doc: Contest)

  datatype Page = Page(
    loading: bool,
    error: Option<string>,
    contest: Option<Contest>,
    contestProblems: seq<ProblemRef>,
    progress: seq<Id>,
    timeLeftMs: int)

  const InitialPage := Page(true, None, None, [], [], 0)

  /** The remaining time set on load: only a live contest with a start time starts the clock. */
  function InitialTimeLeft(c: Contest, now: int, current: int): (r: int)
    ensures c.status == Live && c.startTime.Some? ==> r >= 0 && r >= c.startTime.value - now
    ensures c.status == Live && c.startTime.Some? && c.startTime.value >= now ==> r == c.startTime.value - now
    ensures c.status == Live && c.startTime.Some? && c.startTime.value < now ==> r == 0
    ensures !(c.status == Live && c.startTime.Some?) ==> r == current
  {
    if c.status == Live && c.startTime.Some? then
      var remaining := c.startTime.value - now;
      if remaining > 0 then remaining else 0
    else current
  }

  /** `loadContestData` from the initial page state; `contestId` is the URL's query parameter. */
  function LoadContest(contestId: Option<Id>, fetched: Load, userId: Id, now: int): (p: Page)
    ensures !p.loading
    ensures !HasContestId(contestId) ==> p == InitialPage.(loading := false, error := Some("No Contest ID found in URL."))
    ensures HasContestId(contestId) && fetched.LoadNotOk? ==> p.error == Some("Contest not found") && p.contest.None?
    ensures HasContestId(contestId) && fetched.LoadThrew? ==> p.error == Some(fetched.message) && p.contest.None?
    ensures HasContestId(contestId) && fetched.LoadOk? ==>
      && p.error.None?
      && p.contest == Some(fetched.doc)
      && p.contestProblems == ProblemsOf(fetched.doc)
      && p.progress == SolvedIds(fetched.doc.participants, userId)
      && p.timeLeftMs >= 0
      && p.timeLeftMs == InitialTimeLeft(fetched.doc, now, 0)
  {
    if !HasContestId(contestId) then InitialPage.(loading := false, error := Some("No Contest ID found in URL."))
    else
      match fetched
      case LoadThrew(message) => InitialPage.(loading := false, error := Some(message))
      case LoadNotOk => InitialPage.(loading := false, error := Some("Contest not found"))
      case LoadOk(doc) =>
        InitialPage.(
          loading := false,
          contest := Some(doc),
          contestProblems := ProblemsOf(doc),
          progress := SolvedIds(doc.participants, userId),
          timeLeftMs := InitialTimeLeft(doc, now, InitialPage.timeLeftMs))
  }

  /** One second of the countdown: the interval runs only while time is left, and never goes below zero. */
  function Tick(ms: int): (r: int)
    ensures ms > 0 ==> 0 <= r < ms
    ensures ms <= 0 ==> r == ms
  {
    if ms <= 0 then ms else if ms - 1000 > 0 then ms - 1000 else 0
  }

  /** The remaining time after `n` ticks. */
  function Ticks(ms: int, n: nat): int {
    if n == 0 then ms else Ticks(Tick(ms), n - 1)
  }

  /** From any non-negative start, `n` ticks leave `max(0, ms - 1000 n)`: the countdown stops at exactly zero. */
  lemma {:induction false} TicksClamp(ms: int, n: nat)
    requires ms >= 0
    ensures Ticks(ms, n) == if ms - 1000 * n > 0 then ms - 1000 * n else 0
  {
    if n > 0 {
      TicksClamp(Tick(ms), n - 1);
    }
  }

  /** The countdown text shown on the page: `formatTime(timeLeft)`. */
  function TimeLeftText(p: Page): (r: string)
    requires p.timeLeftMs >= 0
    ensures ParseClock(r) == Some(p.timeLeftMs / 1000)
  {
    FormatMillis(p.timeLeftMs)
  }

  // ---------------------------------------------------------------------------
  // Which screen is shown
  // ---------------------------------------------------------------------------

  datatype Screen =
    | LoadingContest
    | ErrorScreen(message: string)
    | ContestMissing
    | Instructions
    | DisqualifiedScreen(message: string)
    | Coding(banner: Option<string>)

  /** `if (error)`: an error is shown only when there is a message and, being a JavaScript string, it is not empty. */
  predicate ShowsError(p: Page) {
    p.error.Some? && p.error.value != ""
  }

  /** `ContestCodingPage` then `ContestCodingView`: loading, error and missing contest first, then the proctoring gates. */
  function ScreenOf(p: Page, s: Proctoring.Session): (r: Screen)
    ensures r.LoadingContest? <==> p.loading
    ensures r.ErrorScreen? <==> !p.loading && ShowsError(p)
    ensures r.ErrorScreen? ==> Some(r.message) == p.error && r.message != ""
    ensures r.ContestMissing? <==> !p.loading && !ShowsError(p) && p.contest.None?
    ensures r.Coding? <==> !p.loading && !ShowsError(p) && p.contest.Some? && s.active && !s.disqualified
    ensures r.Instructions? <==> !p.loading && !ShowsError(p) && p.contest.Some? && !s.active
    ensures r.DisqualifiedScreen? ==> r.message == s.warningMessage && s.disqualified
    ensures r.Coding? ==> (r.banner.Some? <==> s.warningMessage != "")
  {
    if p.loading then LoadingContest
    else if ShowsError(p) then ErrorScreen(p.error.value)
    else if p.contest.None? then ContestMissing
    else if !s.active then Instructions
    else if s.disqualified then DisqualifiedScreen(s.warningMessage)
    else Coding(if s.warningMessage != "" then Some(s.warningMessage) else None)
  }

  /** Once disqualified, no sequence of further events brings the coding screen back. */
  lemma DisqualifiedStaysOut(p: Page, s: Proctoring.Session, events: seq<Proctoring.Event>, inContest: bool)
    requires Proctoring.Valid(s) && s.disqualified
    requires !p.loading && !ShowsError(p) && p.contest.Some?
    ensures ScreenOf(p, Proctoring.Run(s, events, inContest)) == DisqualifiedScreen(s.warningMessage)
  {
    Proctoring.DisqualifiedIsTerminal(s, events, inContest);
  }

  /**
   * In a contest, the first infraction disqualifies at once, yet the screen that
   * ends the session shows the warning text announcing two warnings left.
   */
  lemma FirstContestInfractionScreen(p: Page, kind: Proctoring.Kind)
    requires !p.loading && !ShowsError(p) && p.contest.Some?
    ensures var s := Proctoring.HandleInfraction(Proctoring.StartProctoring(Proctoring.Initial), kind, true, false).next;
      ScreenOf(p, s) == DisqualifiedScreen(Proctoring.WarningText(kind, 2))
  {
  }

  /**
   * A load that throws without a message stores the empty text as the error,
   * which `if (error)` passes over: the page says the contest could not be loaded.
   */
  lemma EmptyErrorShowsMissing(contestId: Option<Id>, userId: Id, now: int, s: Proctoring.Session)
    requires HasContestId(contestId)
    ensures ScreenOf(LoadContest(contestId, LoadThrew(""), userId, now), s) == ContestMissing
  {
  }
}

=== FILE: contests.dfy ===
/**
 * The contest document the pages fetch from `GET /api/contests/{id}`, reduced
 * to the fields the pages read, and the lookups they share.
 */
module Contests {
  import opened Optional
  import opened Seqs

  /** A MongoDB `_id`, a short problem id or a user id, as text. */
  type Id = string

  datatype Status = Upcoming | Live | Finished

  /** An entry of `contest.problems`: `_id`, the short `id` used in URLs, and `title`. */
  datatype ProblemRef = ProblemRef(mongoId: Id, shortId: Id, title: string)

  /** An entry of `contest.participants`; `problemsSolved` holds the `problemId` of each solved entry. */
  datatype Participant = Participant(userId: Id, displayName: string, score: int, problemsSolved: seq<Id>)

  /** `startTime` and `problems` may be missing from the document; `hostId` may be too. */
  datatype Contest = Contest(
    contestId: Id,
    name: string,
    status: Status,
    startTime: Option<int>,
    hostId: Option<Id>,
    problems: Option<seq<ProblemRef>>,
    participants: seq<Participant>)

  /**
   * `user?.id === contest.hostId`: the signed-in user's id (absent when no user is
   * loaded) compared with the host's id (absent when the document has none).
   * A `hostId` stored as JSON `null` and one left out of the document are both
   * absent here, although `===` tells `undefined` from `null`.
   */
  function IsHost(userId: Option<Id>, hostId: Option<Id>): (r: bool)
    ensures r <==> (userId.Some? && hostId.Some? && userId.value == hostId.value) || (userId.None? && hostId.None?)
  {
    userId == hostId
  }

  function HasUserId(userId: Id): Participant -> bool {
    (p: Participant) => p.userId == userId
  }

  /** `participants.find(p => p.userId === userId)`: the first participant with that id. */
  function FindParticipant(ps: seq<Participant>, userId: Id): (r: Option<Participant>)
    ensures r.None? <==> forall i :: 0 <= i < |ps| ==> ps[i].userId != userId
    ensures r.Some? ==> r.value in ps && r.value.userId == userId
    ensures r.Some? ==> r.value == ps[FindIndex(ps, HasUserId(userId))]
  {
    var k := FindIndex(ps, HasUserId(userId));
    if k < |ps| then Some(ps[k]) else None
  }

  /** The contest's problem list, `[]` when the document has none (`contest.problems || []`). */
  function ProblemsOf(c: Contest): (r: seq<ProblemRef>)
    ensures c.problems.None? ==> r == []
    ensures c.problems.Some? ==> r == c.problems.value
  {
    match c.problems
    case Some(ps) => ps
    case None => []
  }
}

=== FILE: create_contest.dfy ===
/**
 * Contest creation in `CreateContest.jsx`: selecting problems from the bank
 * by their database id, validating the form, and the create request.
 */
module CreateContest {
  import opened Optional
  import opened Text
  import opened Seqs

  /** A problem of the bank as `/api/problems` returns it. */
  datatype BankProblem = BankProblem(mongoId: string, title: string, difficulty: string)

  /** Whether a problem with this id is selected: `prev.find(p => p._id === id)`. */
  predicate Selected(selection: seq<BankProblem>, id: string) {
    exists i :: 0 <= i < |selection| && selection[i].mongoId == id
  }

  function OtherThan(id: string): BankProblem -> bool {
    (p: BankProblem) => p.mongoId != id
  }

  /** No two selected entries share an id. */
  predicate DistinctIds(selection: seq<BankProblem>) {
    forall i, j :: 0 <= i < j < |selection| ==> selection[i].mongoId != selection[j].mongoId
  }

  /** `toggleProblemSelection(problem)`: drop every entry with its id if one is there, else append it. */
  function Toggle(selection: seq<BankProblem>, problem: BankProblem): (r: seq<BankProblem>)
    ensures Selected(r, problem.mongoId) <==> !Selected(selection, problem.mongoId)
    ensures !Selected(selection, problem.mongoId) ==> r == selection + [problem]
    ensures Selected(selection, problem.mongoId) ==> IsSubsequence(r, selection) && |r| < |selection|
  {
    if Selected(selection, problem.mongoId) then
      var r := Filter(selection, OtherThan(problem.mongoId));
      FilterIsSubsequence(selection, OtherThan(problem.mongoId));
      FilterDropsOne(selection, problem.mongoId);
      r
    else
      var r := selection + [problem];
      assert r[|selection|] == problem;
      r
  }

  /** Filtering out an id that is present makes the list shorter. */
  lemma {:induction false} FilterDropsOne(s: seq<BankProblem>, id: string)
    requires Selected(s, id)
    ensures |Filter(s, OtherThan(id))| < |s|
  {
    if s[0].mongoId != id {
      var i :| 0 <= i < |s| && s[i].mongoId == id;
      assert s[1..][i - 1].mongoId == id;
      FilterDropsOne(s[1..], id);
    }
  }

  /** Filtering by the same test twice changes nothing more. */
  lemma {:induction false} FilterIdempotent(s: seq<BankProblem>, p: BankProblem -> bool)
    ensures Filter(Filter(s, p), p) == Filter(s, p)
  {
    FilterKeepsAll(Filter(s, p), p);
  }

  /** A toggle leaves every other entry in place: the entries with other ids are the same, in the same order. */
  lemma ToggleKeepsOthers(selection: seq<BankProblem>, problem: BankProblem)
    ensures Filter(Toggle(selection, problem), OtherThan(problem.mongoId)) == Filter(selection, OtherThan(problem.mongoId))
  {
    var keep := OtherThan(problem.mongoId);
    if Selected(selection, problem.mongoId) {
      FilterIdempotent(selection, keep);
    } else {
      FilterAppend(selection, [problem], keep);
      assert Filter([problem], keep) == [];
    }
  }

  /** Toggling a problem that is not selected, then toggling it again, restores the selection. */
  lemma ToggleTwice(selection: seq<BankProblem>, problem: BankProblem)
    requires !Selected(selection, problem.mongoId)
    ensures Toggle(Toggle(selection, problem), problem) == selection
  {
    var keep := OtherThan(problem.mongoId);
    FilterAppend(selection, [problem], keep);
    assert Filter([problem], keep) == [];
    FilterKeepsAll(selection, keep);
  }

  /** A subsequence of a list with distinct ids has distinct ids. */
  lemma {:induction false} FilterKeepsDistinct(s: seq<BankProblem>, p: BankProblem -> bool)
    requires DistinctIds(s)
    ensures DistinctIds(Filter(s, p))
  {
    if |s| > 0 {
      FilterKeepsDistinct(s[1..], p);
      var rest := Filter(s[1..], p);
      if p(s[0]) {
        forall j | 0 <= j < |rest| ensures rest[j].mongoId != s[0].mongoId {
          FilterCount(s[1..], p, rest[j]);
          var k :| 0 <= k < |s[1..]| && s[1..][k] == rest[j];
          assert s[k + 1] == rest[j];
        }
        assert Filter(s, p) == [s[0]] + rest;
      }
    }
  }

  /** Toggling keeps a selection free of duplicate ids. */
  lemma ToggleKeepsDistinct(selection: seq<BankProblem>, problem: BankProblem)
    requires DistinctIds(selection)
    ensures DistinctIds(Toggle(selection, problem))
  {
    if Selected(selection, problem.mongoId) {
      FilterKeepsDistinct(selection, OtherThan(problem.mongoId));
    }
  }

  // ---------------------------------------------------------------------------
  // Creating the contest
  // ---------------------------------------------------------------------------

  /** The JSON body of `POST /api/contests/create`. */
  datatype CreateRequest = CreateRequest(name: string, problemIds: seq<string>, duration: int)

  datatype Submission = Rejected | Send(request: CreateRequest)

  /** Whether the form may be submitted: a name that is not blank and at least one problem. */
  predicate FormComplete(name: string, selection: seq<BankProblem>) {
    Trim(name) != "" && |selection| > 0
  }

  /** `handleCreateContest` up to the request: an incomplete form is refused before anything is sent. */
  function HandleCreate(name: string, selection: seq<BankProblem>, duration: int): (r: Submission)
    ensures r.Rejected? <==> AllWhitespace(name) || |selection| == 0
    ensures r.Send? ==> r.request.name == name && r.request.duration == duration
    ensures r.Send? ==>
      && |r.request.problemIds| == |selection|
      && forall i :: 0 <= i < |selection| ==> r.request.problemIds[i] == selection[i].mongoId
  {
    if !FormComplete(name, selection) then Rejected
    else Send(CreateRequest(name, seq(|selection|, i requires 0 <= i < |selection| => selection[i].mongoId), duration))
  }

  /** The "Create & Go to Lobby" button is enabled exactly when a submission would be sent and none is in flight. */
  function ButtonEnabled(loading: bool, name: string, selection: seq<BankProblem>): (r: bool)
    ensures r <==> !loading && HandleCreate(name, selection, 0).Send?
  {
    !(loading || Trim(name) == "" || |selection| == 0)
  }

  /** How the create request ended. */
  datatype Response =
    | RequestThrew(error: string)
    | NotOk(serverMessage: Option<string>)
    | Created(contestId: string)

  datatype Outcome = Navigate(path: string) | ShowError(message: string)

  /** After the request: the new contest's lobby, or the error the page shows. */
  function AfterCreate(response: Response): (r: Outcome)
    ensures r.Navigate? <==> response.Created?
    ensures response.Created? ==> r.path == "/contest/" + response.contestId
    ensures response.NotOk? && response.serverMessage.Some? && response.serverMessage.value != "" ==>
      r == ShowError(response.serverMessage.value)
    ensures response.NotOk? && (response.serverMessage.None? || response.serverMessage.value == "") ==>
      r == ShowError("Failed to create contest")
    ensures response.RequestThrew? ==> r == ShowError(response.error)
  {
    match response
    case RequestThrew(message) => ShowError(message)
    case NotOk(message) =>
      if message.Some? && message.value != "" then ShowError(message.value) else ShowError("Failed to create contest")
    case Created(contestId) => Navigate("/contest/" + contestId)
  }
}

=== FILE: lobby.dfy ===
/**
 * The contest lobby of `ContestLobby.jsx`: the seconds countdown, the host
 * check, and the Start and Enter buttons.
 */
module Lobby {
  import opened Optional
  import opened Contests
  import opened Clock

  /**
   * The remaining seconds set by each fetch of the contest: for a live contest,
   * the whole seconds until its `startTime`, rounded down and never negative;
   * otherwise the value is left as it was.
   */
  function RefreshTimeLeft(c: Contest, now: int, current: int): (r: int)
    requires c.status == Live ==> c.startTime.Some?
    ensures c.status != Live ==> r == current
    ensures c.status == Live ==> r >= 0
    ensures c.status == Live && c.startTime.value >= now ==>
      r * 1000 <= c.startTime.value - now < r * 1000 + 1000
    ensures c.status == Live && c.startTime.value < now + 1000 ==> r == 0
  {
    if c.status == Live then
      var seconds := (c.startTime.value - now) / 1000;
      if seconds > 0 then seconds else 0
    else current
  }

  /** One tick of the 1-second interval, which runs only while time is left and the contest is live. */
  function Tick(seconds: int, status: Status): (r: int)
    ensures seconds > 0 && status == Live ==> r == seconds - 1
    ensures seconds <= 0 || status != Live ==> r == seconds
  {
    if seconds <= 0 || status != Live then seconds else seconds - 1
  }

  function Ticks(seconds: int, status: Status, n: nat): int {
    if n == 0 then seconds else Ticks(Tick(seconds, status), status, n - 1)
  }

  /** A live countdown from a non-negative value loses one per tick and stops at exactly zero. */
  lemma {:induction false} TicksStopAtZero(seconds: int, n: nat)
    requires seconds >= 0
    ensures Ticks(seconds, Live, n) == if seconds - n > 0 then seconds - n else 0
    ensures Ticks(seconds, Live, n) >= 0
  {
    if n > 0 {
      TicksStopAtZero(Tick(seconds, Live), n - 1);
    }
  }

  /** The countdown does not move unless the contest is live. */
  lemma {:induction false} TicksFrozenUnlessLive(seconds: int, status: Status, n: nat)
    requires status != Live
    ensures Ticks(seconds, status, n) == seconds
  {
    if n > 0 {
      TicksFrozenUnlessLive(seconds, status, n - 1);
    }
  }

  /** The big heading: the countdown while live, otherwise the word "Lobby". */
  function Heading(c: Contest, seconds: nat): (r: string)
    ensures c.status == Live ==> ParseClock(r) == Some(seconds)
    ensures c.status != Live ==> r == "Lobby"
  {
    if c.status == Live then
      FormatSecondsRoundTrip(seconds);
      FormatSeconds(seconds)
    else "Lobby"
  }

  /** The "Start Contest Now" button is offered only to the host of a contest that has not started. */
  function StartOffered(c: Contest, userId: Option<Id>): (r: bool)
    ensures r <==> c.status == Upcoming && c.hostId == userId
  {
    c.status == Upcoming && IsHost(userId, c.hostId)
  }

  datatype EnterButton = Hidden | Disabled | Enabled(target: ProblemRef, path: string)

  /** The "Enter Contest" button: shown for a live contest, disabled without problems, else opening the first one. */
  function Enter(c: Contest): (r: EnterButton)
    ensures r.Hidden? <==> c.status != Live
    ensures r.Disabled? <==> c.status == Live && (c.problems.None? || |c.problems.value| == 0)
    ensures r.Enabled? ==>
      && |c.problems.value| > 0
      && r.target == c.problems.value[0]
      && r.path == "/problems/" + r.target.shortId + "?contestId=" + c.contestId
  {
    if c.status != Live then Hidden
    else if c.problems.None? || |c.problems.value| == 0 then Disabled
    else
      var first := c.problems.value[0];
      Enabled(first, "/problems/" + first.shortId + "?contestId=" + c.contestId)
  }
}

=== FILE: optional.dfy ===
/** A value that may be absent: JavaScript's `undefined`/`null` for an optional field. */
module Optional {
  datatype Option<+T> = None | Some(value: T)
}

=== FILE: problems.dfy ===
/**
 * The problem list of `Problems.jsx`: title search, difficulty and tag
 * filters, sorting by title or difficulty in either direction, and paging.
 */
module ProblemList {
  import opened Text
  import opened Seqs

  datatype Problem = Problem(id: nat, title: string, tags: seq<string>, difficulty: string, solved: bool)

  /** The filter controls; an empty value means the filter is off. */
  datatype Query = Query(search: string, difficulty: string, tag: string)

  datatype SortKey = Title | Difficulty
  datatype Direction = Ascending | Descending
  datatype SortConfig = SortConfig(key: SortKey, direction: Direction)

  // ---------------------------------------------------------------------------
  // Filtering
  // ---------------------------------------------------------------------------

  predicate MatchesSearch(p: Problem, term: string) {
    Includes(Lower(p.title), Lower(term))
  }

  function SearchTest(term: string): Problem -> bool {
    (p: Problem) => MatchesSearch(p, term)
  }

  function DifficultyTest(difficulty: string): Problem -> bool {
    (p: Problem) => p.difficulty == difficulty
  }

  function TagTest(tag: string): Problem -> bool {
    (p: Problem) => tag in p.tags
  }

  /** What a listed problem satisfies: every filter that is on. */
  predicate Matches(q: Query, p: Problem) {
    && (q.search == "" || MatchesSearch(p, q.search))
    && (q.difficulty == "" || p.difficulty == q.difficulty)
    && (q.tag == "" || q.tag in p.tags)
  }

  function MatchTest(q: Query): Problem -> bool {
    (p: Problem) => Matches(q, p)
  }

  /** The three filters in the order the page applies them, each skipped when its value is empty. */
  function ApplyFilters(problems: seq<Problem>, q: Query): (r: seq<Problem>)
    ensures |r| <= |problems|
    ensures forall p :: p in r ==> p in problems && Matches(q, p)
  {
    var afterSearch := if q.search != "" then Filter(problems, SearchTest(q.search)) else problems;
    var afterDifficulty := if q.difficulty != "" then Filter(afterSearch, DifficultyTest(q.difficulty)) else afterSearch;
    if q.tag != "" then Filter(afterDifficulty, TagTest(q.tag)) else afterDifficulty
  }

  /** The chain of filters is one filter by `Matches`. */
  lemma FiltersAreOneFilter(problems: seq<Problem>, q: Query)
    ensures ApplyFilters(problems, q) == Filter(problems, MatchTest(q))
  {
  }

  /**
   * The filtered list keeps the input order, holds only problems that pass every
   * active filter, and keeps each passing problem as often as it occurs.
   */
  lemma FilteredProblems(problems: seq<Problem>, q: Query)
    ensures IsSubsequence(ApplyFilters(problems, q), problems)
    ensures forall p :: p in ApplyFilters(problems, q) <==> p in problems && Matches(q, p)
    ensures forall p :: multiset(ApplyFilters(problems, q))[p] == (if Matches(q, p) then multiset(problems)[p] else 0)
    ensures q == Query("", "", "") ==> ApplyFilters(problems, q) == problems
  {
    FiltersAreOneFilter(problems, q);
    FilterIsSubsequence(problems, MatchTest(q));
    forall p
      ensures multiset(ApplyFilters(problems, q))[p] == (if Matches(q, p) then multiset(problems)[p] else 0)
      ensures p in ApplyFilters(problems, q) <==> p in problems && Matches(q, p)
    {
      FilterCount(problems, MatchTest(q), p);
    }
  }

  // ---------------------------------------------------------------------------
  // Sorting
  // ---------------------------------------------------------------------------

  function KeyOf(p: Problem, key: SortKey): string {
    match key
    case Title => p.title
    case Difficulty => p.difficulty
  }

  /** Where the comparator returns -1: `a` goes before `b`. */
  function Before(cfg: SortConfig): (Problem, Problem) -> bool {
    (a: Problem, b: Problem) =>
      if cfg.direction == Ascending then LexLess(KeyOf(a, cfg.key), KeyOf(b, cfg.key))
      else LexLess(KeyOf(b, cfg.key), KeyOf(a, cfg.key))
  }

  lemma BeforeIsStrictWeakOrder(cfg: SortConfig)
    ensures StrictWeakOrder(Before(cfg))
  {
    var lt := Before(cfg);
    forall a: Problem ensures !lt(a, a) {
      LexLessIrreflexive(KeyOf(a, cfg.key));
    }
    forall a: Problem, b: Problem, c: Problem | lt(a, b) && lt(b, c) ensures lt(a, c) {
      var ka, kb, kc := KeyOf(a, cfg.key), KeyOf(b, cfg.key), KeyOf(c, cfg.key);
      if cfg.direction == Ascending {
        LexLessTransitive(ka, kb, kc);
      } else {
        LexLessTransitive(kc, kb, ka);
      }
    }
    forall a: Problem, b: Problem, c: Problem | lt(a, c) && !lt(a, b) ensures lt(b, c) {
      var ka, kb, kc := KeyOf(a, cfg.key), KeyOf(b, cfg.key), KeyOf(c, cfg.key);
      if cfg.direction == Ascending {
        if ka != kb {
          LexLessTotal(ka, kb);
          LexLessTransitive(kb, ka, kc);
        }
      } else {
        if ka != kb {
          LexLessTotal(ka, kb);
          LexLessTransitive(kc, ka, kb);
        }
      }
    }
  }

  /** `filteredAndSortedProblems`. */
  function FilterAndSort(problems: seq<Problem>, q: Query, cfg: SortConfig): (r: seq<Problem>)
    ensures multiset(r) == multiset(ApplyFilters(problems, q))
    ensures forall p :: p in r ==> p in problems && Matches(q, p)
  {
    var filtered := ApplyFilters(problems, q);
    var r := Sort(filtered, Before(cfg));
    assert forall p :: p in r ==> p in multiset(r) && p in multiset(filtered);
    r
  }

  /**
   * The listed problems are a permutation of the filtered ones, ordered by the key
   * in the chosen direction, with problems of equal key in input order.
   */
  lemma SortedProblems(problems: seq<Problem>, q: Query, cfg: SortConfig)
    ensures multiset(FilterAndSort(problems, q, cfg)) == multiset(ApplyFilters(problems, q))
    ensures var r := FilterAndSort(problems, q, cfg);
      forall i, j :: 0 <= i < j < |r| ==>
        if cfg.direction == Ascending then !LexLess(KeyOf(r[j], cfg.key), KeyOf(r[i], cfg.key))
        else !LexLess(KeyOf(r[i], cfg.key), KeyOf(r[j], cfg.key))
    ensures StableFor(FilterAndSort(problems, q, cfg), ApplyFilters(problems, q), Before(cfg))
  {
    BeforeIsStrictWeakOrder(cfg);
    SortCorrect(ApplyFilters(problems, q), Before(cfg));
    var r := FilterAndSort(problems, q, cfg);
    forall i, j | 0 <= i < j < |r|
      ensures if cfg.direction == Ascending then !LexLess(KeyOf(r[j], cfg.key), KeyOf(r[i], cfg.key))
        else !LexLess(KeyOf(r[i], cfg.key), KeyOf(r[j], cfg.key))
    {
      assert !Before(cfg)(r[j], r[i]);
    }
  }

  /** `handleSort(key)`: the same key while ascending turns descending; anything else sorts ascending by `key`. */
  function HandleSort(cfg: SortConfig, key: SortKey): (r: SortConfig)
    ensures r.key == key
    ensures r.direction == Descending <==> cfg.key == key && cfg.direction == Ascending
  {
    if cfg.key == key && cfg.direction == Ascending then SortConfig(key, Descending) else SortConfig(key, Ascending)
  }

  /** Clicking the current column twice restores the order it had. */
  lemma HandleSortTwice(cfg: SortConfig)
    ensures HandleSort(HandleSort(cfg, cfg.key), cfg.key) == cfg
  {
  }

  // ---------------------------------------------------------------------------
  // Paging
  // ---------------------------------------------------------------------------

  /** `Math.ceil(n / rowsPerPage)`. */
  function TotalPages(n: nat, rowsPerPage: nat): (t: nat)
    requires rowsPerPage > 0
    ensures t * rowsPerPage >= n
    ensures t > 0 ==> (t - 1) * rowsPerPage < n
    ensures t == 0 <==> n == 0
  {
    (n + rowsPerPage - 1) / rowsPerPage
  }

  function Min(a: int, b: int): int {
    if a <= b then a else b
  }

  /** `list.slice((page - 1) * rowsPerPage, page * rowsPerPage)`; `slice` clamps both ends to the length. */
  function PageOf<T>(s: seq<T>, page: nat, rowsPerPage: nat): (r: seq<T>)
    requires page >= 1 && rowsPerPage > 0
    ensures |r| <= rowsPerPage
    ensures (page - 1) * rowsPerPage >= |s| ==> r == []
    ensures page * rowsPerPage <= |s| ==> |r| == rowsPerPage
    ensures (page - 1) * rowsPerPage < |s| ==> |r| > 0
    ensures forall i :: 0 <= i < |r| ==> (page - 1) * rowsPerPage + i < |s| && r[i] == s[(page - 1) * rowsPerPage + i]
  {
    var lo := (page - 1) * rowsPerPage;
    assert page * rowsPerPage == lo + rowsPerPage;
    Window(s, lo, rowsPerPage)
  }

  /** The `n` items from position `lo` on, cut short at the end of the list. */
  function Window<T>(s: seq<T>, lo: nat, n: nat): (r: seq<T>)
    ensures |r| <= n
    ensures lo >= |s| ==> r == []
    ensures lo + n <= |s| ==> |r| == n
    ensures lo < |s| && n > 0 ==> |r| > 0
    ensures forall i :: 0 <= i < |r| ==> lo + i < |s| && r[i] == s[lo + i]
  {
    if lo >= |s| then []
    else if lo + n <= |s| then s[lo..lo + n]
    else s[lo..]
  }

  /** Pages `1..k` one after another. */
  function FirstPages<T>(s: seq<T>, k: nat, rowsPerPage: nat): seq<T>
    requires rowsPerPage > 0
  {
    if k == 0 then [] else FirstPages(s, k - 1, rowsPerPage) + PageOf(s, k, rowsPerPage)
  }

  lemma {:induction false} FirstPagesArePrefix<T>(s: seq<T>, k: nat, rowsPerPage: nat)
    requires rowsPerPage > 0
    ensures FirstPages(s, k, rowsPerPage) == s[..Min(k * rowsPerPage, |s|)]
  {
    if k > 0 {
      FirstPagesArePrefix(s, k - 1, rowsPerPage);
      NextPageExtendsPrefix(s, k, rowsPerPage);
    }
  }

  /** Appending page `k` to the first `k - 1` pages' prefix gives the prefix through page `k`. */
  lemma NextPageExtendsPrefix<T>(s: seq<T>, k: nat, rowsPerPage: nat)
    requires k >= 1 && rowsPerPage > 0
    ensures s[..Min((k - 1) * rowsPerPage, |s|)] + PageOf(s, k, rowsPerPage) == s[..Min(k * rowsPerPage, |s|)]
  {
    var lo := (k - 1) * rowsPerPage;
    var a, b := Min(lo, |s|), Min(lo + rowsPerPage, |s|);
    PageIsSlice(s, k, rowsPerPage);
    assert s[..a] + s[a..b] == s[..b];
    assert k * rowsPerPage == lo + rowsPerPage;
  }

  /** Page `page` is the slice of the list between its two clamped ends. */
  lemma PageIsSlice<T>(s: seq<T>, page: nat, rowsPerPage: nat)
    requires page >= 1 && rowsPerPage > 0
    ensures var lo := (page - 1) * rowsPerPage;
      PageOf(s, page, rowsPerPage) == s[Min(lo, |s|)..Min(lo + rowsPerPage, |s|)]
  {
  }

  /** Pages `1..TotalPages` together are exactly the whole list. */
  lemma PagesCoverList<T>(s: seq<T>, rowsPerPage: nat)
    requires rowsPerPage > 0
    ensures FirstPages(s, TotalPages(|s|, rowsPerPage), rowsPerPage) == s
  {
    FirstPagesArePrefix(s, TotalPages(|s|, rowsPerPage), rowsPerPage);
  }

  /** `handlePageChange(page)`: only a page between 1 and the page count is accepted. */
  function HandlePageChange(current: nat, page: int, totalPages: nat): (r: nat)
    ensures 1 <= page <= totalPages ==> r == page
    ensures !(1 <= page <= totalPages) ==> r == current
  {
    if 1 <= page <= totalPages then page else current
  }

  // ---------------------------------------------------------------------------
  // The page's state
  // ---------------------------------------------------------------------------

  /** The "Rows per page" options. */
  datatype Rows = Five | Ten | Fifteen {
    function Count(): (n: nat)
      ensures n > 0
    {
      match this
      case Five => 5
      case Ten => 10
      case Fifteen => 15
    }
  }

  datatype View = View(query: Query, sort: SortConfig, page: nat, rows: Rows)

  const InitialView := View(Query("", "", ""), SortConfig(Title, Ascending), 1, Five)

  datatype Action =
    | SetSearch(term: string)
    | SetDifficulty(difficulty: string)
    | SetTag(tag: string)
    | SortBy(key: SortKey)
    | GoToPage(page: int)
    | SetRows(rows: Rows)

  function PageCount(problems: seq<Problem>, v: View): nat {
    TotalPages(|ApplyFilters(problems, v.query)|, v.rows.Count())
  }

  /** The page after an update, given the effect that resets it to 1 when one of its dependencies changed. */
  function AfterReset(before: View, after: View): View {
    if before.query != after.query || before.rows != after.rows then after.(page := 1) else after
  }

  /** One user action, with the effect on the page that follows it. */
  function Act(problems: seq<Problem>, v: View, a: Action): (r: View)
    ensures r.query != v.query || r.rows != v.rows ==> r.page == 1
    ensures a.SetSearch? ==>
      && r.query == v.query.(search := a.term) && r.sort == v.sort && r.rows == v.rows
      && r.page == (if a.term == v.query.search then v.page else 1)
    ensures a.SetDifficulty? ==>
      && r.query == v.query.(difficulty := a.difficulty) && r.sort == v.sort && r.rows == v.rows
      && r.page == (if a.difficulty == v.query.difficulty then v.page else 1)
    ensures a.SetTag? ==>
      && r.query == v.query.(tag := a.tag) && r.sort == v.sort && r.rows == v.rows
      && r.page == (if a.tag == v.query.tag then v.page else 1)
    ensures a.SetRows? ==>
      && r.rows == a.rows && r.query == v.query && r.sort == v.sort
      && r.page == (if a.rows == v.rows then v.page else 1)
    ensures a.SortBy? ==>
      && r.query == v.query && r.rows == v.rows && r.page == v.page
      && r.sort.key == a.key
      && (r.sort.direction == Descending <==> v.sort.key == a.key && v.sort.direction == Ascending)
    ensures a.GoToPage? ==>
      && r.query == v.query && r.rows == v.rows && r.sort == v.sort
      && r.page == (if 1 <= a.page <= PageCount(problems, v) then a.page else v.page)
  {
    match a
    case SetSearch(term) => AfterReset(v, v.(query := v.query.(search := term)))
    case SetDifficulty(d) => AfterReset(v, v.(query := v.query.(difficulty := d)))
    case SetTag(t) => AfterReset(v, v.(query := v.query.(tag := t)))
    case SortBy(key) => v.(sort := HandleSort(v.sort, key))
    case GoToPage(p) => v.(page := HandlePageChange(v.page, p, PageCount(problems, v)))
    case SetRows(r) => AfterReset(v, v.(rows := r))
  }

  /** The current page is always a real page, or page 1 of an empty list. */
  ghost predicate PageInRange(problems: seq<Problem>, v: View) {
    1 <= v.page && (v.page == 1 || v.page <= PageCount(problems, v))
  }

  /** The page starts in range. */
  lemma InitialViewInRange(problems: seq<Problem>)
    ensures PageInRange(problems, InitialView)
  {
  }

  lemma ActKeepsPageInRange(problems: seq<Problem>, v: View, a: Action)
    requires PageInRange(problems, v)
    ensures PageInRange(problems, Act(problems, v, a))
  {
  }

  /** The page shown: the current page of the filtered, sorted list. */
  function Shown(problems: seq<Problem>, v: View): seq<Problem>
    requires v.page >= 1
  {
    PageOf(FilterAndSort(problems, v.query, v.sort), v.page, v.rows.Count())
  }

  lemma MulMonotone(a: nat, b: nat, k: nat)
    requires a <= b
    ensures a * k <= b * k
  {
  }

  /** In range, the shown page is never empty unless nothing passes the filters. */
  lemma ShownNonEmpty(problems: seq<Problem>, v: View)
    requires PageInRange(problems, v)
    requires |ApplyFilters(problems, v.query)| > 0
    ensures |Shown(problems, v)| > 0
  {
    var list := FilterAndSort(problems, v.query, v.sort);
    var n, rows := |list|, v.rows.Count();
    assert n == |ApplyFilters(problems, v.query)|;
    if v.page > 1 {
      var t := TotalPages(n, rows);
      MulMonotone(v.page - 1, t - 1, rows);
    }
    assert (v.page - 1) * rows < n;
  }
}

=== FILE: proctoring.dfy ===
/**
 * The proctoring session of `ProctoringContext.jsx`: the infraction counter,
 * the warning text, the disqualification flag, the paste check and the
 * keyboard shortcut blocker. Every event is handled to completion, including
 * the awaited disqualify request in contest mode, before the next one.
 */
module Proctoring {
  import opened Text

  /** `MAX_INFRACTIONS`. */
  const MaxInfractions: nat := 3

  /** A paste longer than this many characters is an infraction. */
  const PasteLimit: nat := 50

  /** The `type` the detectors report: `'tab_switch'`, `'exit_fullscreen'` and `'paste_attempt'`. */
  datatype Kind = TabSwitch | ExitFullscreen | PasteAttempt

  datatype Session = Session(active: bool, infractionCount: nat, warningMessage: string, disqualified: bool)

  /** The state when the provider mounts. */
  const Initial := Session(false, 0, "", false)

  /**
   * The session after an event, and whether `POST /api/contests/{id}/disqualify`
   * was sent for it.
   */
  datatype Step = Step(next: Session, disqualifyRequested: bool)

  /** Only a tab switch has its own wording; every other kind, pastes included, reads as a fullscreen exit. */
  function Reason(kind: Kind): (r: string)
    ensures kind == TabSwitch ==> r == "switching tabs"
    ensures kind != TabSwitch ==> r == "exiting fullscreen"
  {
    if kind == TabSwitch then "switching tabs" else "exiting fullscreen"
  }

  function DisqualifiedText(kind: Kind): string {
    "Disqualified for " + Reason(kind) + "."
  }

  function WarningText(kind: Kind, remaining: nat): string {
    "Warning: Infraction detected for " + Reason(kind) + ". You have " + Decimal(remaining) + " warning(s) left."
  }

  /** Counting stops once the session is disqualified or before it starts. */
  predicate Processes(s: Session) {
    s.active && !s.disqualified
  }

  /**
   * `handleInfraction(type)` together with `logInfractionToServer(type)`.
   * `inContest` says whether the provider has a `contestId`; `requestThrows`
   * whether the disqualify request throws (a response that is not ok does not throw).
   */
  function HandleInfraction(s: Session, kind: Kind, inContest: bool, requestThrows: bool): (r: Step)
    ensures !Processes(s) ==> r.next == s && !r.disqualifyRequested
    ensures Processes(s) ==> r.next.active && r.next.infractionCount == s.infractionCount + 1
    ensures Processes(s) && r.next.infractionCount >= MaxInfractions ==>
      r.next.warningMessage == DisqualifiedText(kind) && r.next.disqualified
    ensures Processes(s) && r.next.infractionCount < MaxInfractions ==>
      r.next.warningMessage == WarningText(kind, MaxInfractions - r.next.infractionCount)
      && (r.next.disqualified <==> inContest && !requestThrows)
    ensures r.disqualifyRequested <==> Processes(s) && inContest
  {
    if !Processes(s) then Step(s, false)
    else
      var newCount := s.infractionCount + 1;
      var reachedLimit := newCount >= MaxInfractions;
      var message := if reachedLimit then DisqualifiedText(kind) else WarningText(kind, MaxInfractions - newCount);
      var serverDisqualified := inContest && !requestThrows;
      Step(Session(true, newCount, message, reachedLimit || serverDisqualified), inContest)
  }

  /** `handlePasteEvent(text)`: only a paste longer than the limit, in a running session, is an infraction. */
  function HandlePaste(s: Session, text: string, inContest: bool, requestThrows: bool): (r: Step)
    ensures !Processes(s) || |text| <= PasteLimit ==> r == Step(s, false)
    ensures Processes(s) && |text| > PasteLimit ==>
      r == HandleInfraction(s, PasteAttempt, inContest, requestThrows)
      && r.next.infractionCount == s.infractionCount + 1
  {
    if !Processes(s) then Step(s, false)
    else if |text| > PasteLimit then HandleInfraction(s, PasteAttempt, inContest, requestThrows)
    else Step(s, false)
  }

  /** `startProctoring()`: the session becomes active; nothing else changes. */
  function StartProctoring(s: Session): (r: Session)
    ensures r.active
    ensures r.infractionCount == s.infractionCount && r.disqualified == s.disqualified
    ensures r.warningMessage == s.warningMessage
  {
    s.(active := true)
  }

  /** A keydown event: the Ctrl and Meta modifier flags and `event.key`. */
  datatype KeyPress = KeyPress(ctrlKey: bool, metaKey: bool, key: string)

  /** Whether `handleGlobalKeyDown`, installed only while active, calls `preventDefault`. */
  predicate KeySuppressed(active: bool, e: KeyPress)
    ensures KeySuppressed(active, e) ==> |e.key| == 1 && e.key[0] in "cvx"
    ensures !active || !(e.ctrlKey || e.metaKey) ==> !KeySuppressed(active, e)
  {
    active && (e.ctrlKey || e.metaKey) && (e.key == "c" || e.key == "v" || e.key == "x")
  }

  /** Whether the context menu is suppressed: the handler is installed exactly while active. */
  predicate ContextMenuSuppressed(active: bool) {
    active
  }

  /**
   * Exactly the one-character keys `c`, `v` and `x` with Ctrl or Meta held are
   * blocked, and only while the session is active; the same key press passes
   * once the session is inactive, and no key passes without a modifier check.
   */
  lemma BlockedShortcuts(active: bool, e: KeyPress)
    ensures KeySuppressed(active, e) <==> active && (e.ctrlKey || e.metaKey) && |e.key| == 1 && e.key[0] in "cvx"
    ensures KeySuppressed(active, e) ==> KeySuppressed(true, e) && !KeySuppressed(false, e)
    ensures ContextMenuSuppressed(active) <==> active
  {
  }

  // ---------------------------------------------------------------------------
  // Event sequences
  // ---------------------------------------------------------------------------

  datatype Event =
    | Start
    | Infraction(kind: Kind, requestThrows: bool)
    | Paste(text: string, requestThrows: bool)

  function Apply(s: Session, e: Event, inContest: bool): Step {
    match e
    case Start => Step(StartProctoring(s), false)
    case Infraction(kind, throws) => HandleInfraction(s, kind, inContest, throws)
    case Paste(text, throws) => HandlePaste(s, text, inContest, throws)
  }

  /** The session after handling `events` in order. */
  function Run(s: Session, events: seq<Event>, inContest: bool): Session
    decreases |events|
  {
    if |events| == 0 then s else Run(Apply(s, events[0], inContest).next, events[1..], inContest)
  }

  /** How many disqualify requests `events` send. */
  function Requests(s: Session, events: seq<Event>, inContest: bool): nat
    decreases |events|
  {
    if |events| == 0 then 0
    else
      var step := Apply(s, events[0], inContest);
      (if step.disqualifyRequested then 1 else 0) + Requests(step.next, events[1..], inContest)
  }

  /**
   * What every reachable session satisfies: the count never passes the limit,
   * reaching it disqualifies, and nothing is recorded before the session starts.
   */
  ghost predicate Valid(s: Session) {
    && s.infractionCount <= MaxInfractions
    && (s.infractionCount >= MaxInfractions ==> s.disqualified)
    && (!s.active ==> s.infractionCount == 0 && !s.disqualified && s.warningMessage == "")
  }

  lemma InitialValid()
    ensures Valid(Initial)
  {
  }

  lemma {:induction false} ApplyPreservesValid(s: Session, e: Event, inContest: bool)
    requires Valid(s)
    ensures Valid(Apply(s, e, inContest).next)
  {
  }

  /** The count never decreases, and activity and disqualification are never withdrawn. */
  lemma {:induction false} RunMonotone(s: Session, events: seq<Event>, inContest: bool)
    ensures Valid(s) ==> Valid(Run(s, events, inContest))
    ensures Run(s, events, inContest).infractionCount >= s.infractionCount
    ensures s.active ==> Run(s, events, inContest).active
    ensures s.disqualified ==> Run(s, events, inContest).disqualified
    decreases |events|
  {
    if |events| > 0 {
      var next := Apply(s, events[0], inContest).next;
      if Valid(s) {
        ApplyPreservesValid(s, events[0], inContest);
      }
      RunMonotone(next, events[1..], inContest);
    }
  }

  /** Once disqualified, a valid session ignores everything: the disqualification is terminal. */
  lemma {:induction false} DisqualifiedIsTerminal(s: Session, events: seq<Event>, inContest: bool)
    requires Valid(s) && s.disqualified
    ensures Run(s, events, inContest) == s
    ensures Requests(s, events, inContest) == 0
    decreases |events|
  {
    if |events| > 0 {
      assert Apply(s, events[0], inContest).next == s;
      DisqualifiedIsTerminal(s, events[1..], inContest);
    }
  }

  /** Outside a contest, disqualification comes only from reaching the limit. */
  lemma {:induction false} PracticeDisqualifiesAtLimit(s: Session, events: seq<Event>)
    requires Valid(s)
    requires s.disqualified <==> s.infractionCount >= MaxInfractions
    ensures Run(s, events, false).disqualified <==> Run(s, events, false).infractionCount == MaxInfractions
    decreases |events|
  {
    if |events| > 0 {
      var next := Apply(s, events[0], false).next;
      ApplyPreservesValid(s, events[0], false);
      PracticeDisqualifiesAtLimit(next, events[1..]);
    }
  }

  /** A session is active after a run exactly when it was already active or a start event occurred. */
  lemma {:induction false} ActiveIffStarted(s: Session, events: seq<Event>, inContest: bool)
    ensures Run(s, events, inContest).active <==> s.active || Start in events
    decreases |events|
  {
    if |events| > 0 {
      var next := Apply(s, events[0], inContest).next;
      ActiveIffStarted(next, events[1..], inContest);
      assert next.active <==> s.active || events[0] == Start;
      assert events == [events[0]] + events[1..];
    }
  }

  /** Practice mode never contacts the server. */
  lemma {:induction false} PracticeSendsNoRequests(s: Session, events: seq<Event>)
    ensures Requests(s, events, false) == 0
    decreases |events|
  {
    if |events| > 0 {
      PracticeSendsNoRequests(Apply(s, events[0], false).next, events[1..]);
    }
  }

  /**
   * In a contest whose disqualify requests go through, the first counted infraction
   * disqualifies: the count stays at most one, and exactly one request is sent
   * once anything was counted.
   */
  lemma {:induction false} ContestDisqualifiesOnFirst(s: Session, events: seq<Event>)
    requires Valid(s) && s.infractionCount == 0
    requires forall i :: 0 <= i < |events| ==> !events[i].Start? ==> !events[i].requestThrows
    ensures Run(s, events, true).infractionCount <= 1
    ensures Run(s, events, true).infractionCount == 1 ==> Run(s, events, true).disqualified
    ensures Requests(s, events, true) == Run(s, events, true).infractionCount
    decreases |events|
  {
    if |events| > 0 {
      var next := Apply(s, events[0], true).next;
      ApplyPreservesValid(s, events[0], true);
      if next.infractionCount == 0 {
        ContestDisqualifiesOnFirst(next, events[1..]);
      } else {
        assert next.disqualified;
        DisqualifiedIsTerminal(next, events[1..], true);
      }
    }
  }
}

=== FILE: results.dfy ===
/**
 * The final leaderboard of `ContestResultsPage.jsx`: participants ordered by
 * score, highest first, each shown with its rank and a crown for the host.
 */
module Results {
  import opened Optional
  import opened Seqs
  import opened Contests

  /** The comparator `(a, b) => b.score - a.score`: `a` goes first when it scored more. */
  function HigherScore(): (Participant, Participant) -> bool {
    (a: Participant, b: Participant) => b.score - a.score < 0
  }

  lemma HigherScoreIsStrictWeakOrder()
    ensures StrictWeakOrder(HigherScore())
  {
  }

  /** `sortedLeaderboard`: a sorted copy of the participants; the contest itself is not changed. */
  function Leaderboard(c: Contest): (r: seq<Participant>)
    ensures |r| == |c.participants|
    ensures multiset(r) == multiset(c.participants)
  {
    Sort(c.participants, HigherScore())
  }

  /**
   * The leaderboard holds exactly the participants, scores never increase down
   * the list, and participants with equal scores keep their stored order.
   */
  lemma LeaderboardCorrect(c: Contest)
    ensures multiset(Leaderboard(c)) == multiset(c.participants)
    ensures forall i, j :: 0 <= i < j < |Leaderboard(c)| ==> Leaderboard(c)[i].score >= Leaderboard(c)[j].score
    ensures StableFor(Leaderboard(c), c.participants, HigherScore())
  {
    HigherScoreIsStrictWeakOrder();
    SortCorrect(c.participants, HigherScore());
    var r := Leaderboard(c);
    forall i, j | 0 <= i < j < |r| ensures r[i].score >= r[j].score {
      assert !HigherScore()(r[j], r[i]);
    }
  }

  /** A line of the leaderboard. */
  datatype Row = Row(rank: nat, displayName: string, crowned: bool, score: int)

  /** The rendered lines: rank `index + 1` and a crown where the participant is the host. */
  function Rows(c: Contest): (rows: seq<Row>)
    ensures |rows| == |c.participants|
    ensures forall i :: 0 <= i < |rows| ==> rows[i].rank == i + 1
    ensures forall i :: 0 <= i < |rows| ==>
      && rows[i].displayName == Leaderboard(c)[i].displayName
      && rows[i].score == Leaderboard(c)[i].score
      && (rows[i].crowned <==> c.hostId == Some(Leaderboard(c)[i].userId))
  {
    var board := Leaderboard(c);
    seq(|board|, i requires 0 <= i < |board| =>
      Row(i + 1, board[i].displayName, IsHost(Some(board[i].userId), c.hostId), board[i].score))
  }

  /** Whether some line of the leaderboard shows rank `k`. */
  predicate ShowsRank(rows: seq<Row>, k: int) {
    exists i :: 0 <= i < |rows| && rows[i].rank == k
  }

  /** The ranks shown are exactly `1..n`, each on one line only. */
  lemma RanksAreOneToN(c: Contest)
    ensures forall k :: ShowsRank(Rows(c), k) <==> 1 <= k <= |c.participants|
    ensures forall i, j :: 0 <= i < |Rows(c)| && 0 <= j < |Rows(c)| && i != j ==> Rows(c)[i].rank != Rows(c)[j].rank
  {
    var rows := Rows(c);
    forall k | 1 <= k <= |c.participants| ensures ShowsRank(rows, k) {
      assert rows[k - 1].rank == k;
    }
  }

  /** Rank 1 goes to a participant no one outscored. */
  lemma FirstPlaceHasTopScore(c: Contest)
    ensures forall p :: p in c.participants ==> |Rows(c)| > 0 && Rows(c)[0].score >= p.score
  {
    LeaderboardCorrect(c);
    var board := Leaderboard(c);
    forall p | p in c.participants ensures |Rows(c)| > 0 && Rows(c)[0].score >= p.score {
      assert p in multiset(board);
      var j :| 0 <= j < |board| && board[j] == p;
      assert board[0].score >= board[j].score;
    }
  }

  /** Whether the signed-in user hosts the contest, as `user?.id === contest.hostId`. */
  function ViewerIsHost(c: Contest, userId: Option<Id>): (r: bool)
    ensures r <==> c.hostId == userId
  {
    IsHost(userId, c.hostId)
  }
}

=== FILE: seqs.dfy ===
/**
 * The two list operations the pages build on: `Array.prototype.filter` and the
 * stable `Array.prototype.sort` of ECMAScript 2019 and later, driven by a
 * "comes strictly before" relation derived from the page's comparator.
 */
module Seqs {

  // ---------------------------------------------------------------------------
  // Filtering
  // ---------------------------------------------------------------------------

  /** `r` can be obtained from `s` by deleting elements. */
  predicate IsSubsequence<T(==)>(r: seq<T>, s: seq<T>) {
    if |r| == 0 then true
    else if |s| == 0 then false
    else (r[0] == s[0] && IsSubsequence(r[1..], s[1..])) || IsSubsequence(r, s[1..])
  }

  /** Where `find`/`findIndex` stops: the first position passing `p`, or `|s|` when none does. */
  function FindIndex<T>(s: seq<T>, p: T -> bool): (k: nat)
    ensures k <= |s|
    ensures k < |s| ==> p(s[k])
    ensures forall i :: 0 <= i < k ==> !p(s[i])
  {
    if |s| == 0 || p(s[0]) then 0 else 1 + FindIndex(s[1..], p)
  }

  /** `s.filter(p)`: the elements of `s` that satisfy `p`, in their original order. */
  function Filter<T(!new)>(s: seq<T>, p: T -> bool): (r: seq<T>)
    ensures |r| <= |s|
    ensures forall i :: 0 <= i < |r| ==> p(r[i])
    ensures forall x :: x in r ==> x in s && p(x)
  {
    if |s| == 0 then []
    else
      var rest := Filter(s[1..], p);
      if p(s[0]) then [s[0]] + rest else rest
  }

  /** Filtering keeps every element that passes, as many times as it occurs, and nothing else. */
  lemma {:induction false} FilterCount<T(!new)>(s: seq<T>, p: T -> bool, x: T)
    ensures multiset(Filter(s, p))[x] == if p(x) then multiset(s)[x] else 0
    ensures x in Filter(s, p) <==> x in s && p(x)
  {
    if |s| > 0 {
      FilterCount(s[1..], p, x);
      assert s == [s[0]] + s[1..];
    }
  }

  /** A filtered list keeps its elements in input order. */
  lemma {:induction false} FilterIsSubsequence<T(!new)>(s: seq<T>, p: T -> bool)
    ensures IsSubsequence(Filter(s, p), s)
  {
    if |s| > 0 {
      FilterIsSubsequence(s[1..], p);
      var rest := Filter(s[1..], p);
      if p(s[0]) {
        assert ([s[0]] + rest)[1..] == rest;
      }
    }
  }

  /** The first element kept is the first element of `s` that passes. */
  lemma {:induction false} FilterHead<T(!new)>(s: seq<T>, p: T -> bool)
    requires |Filter(s, p)| > 0
    ensures exists j :: 0 <= j < |s| && s[j] == Filter(s, p)[0] && p(s[j]) && forall i :: 0 <= i < j ==> !p(s[i])
  {
    if !p(s[0]) {
      FilterHead(s[1..], p);
      var j :| 0 <= j < |s| - 1 && s[1..][j] == Filter(s[1..], p)[0] && p(s[1..][j])
        && forall i :: 0 <= i < j ==> !p(s[1..][i]);
      assert forall i :: 0 <= i < j + 1 ==> !p(s[i]) by {
        forall i | 0 <= i < j + 1 ensures !p(s[i]) {
          if i > 0 { assert s[i] == s[1..][i - 1]; }
        }
      }
    } else {
      assert s[0] == Filter(s, p)[0];
    }
  }

  lemma {:induction false} FilterAppend<T(!new)>(a: seq<T>, b: seq<T>, p: T -> bool)
    ensures Filter(a + b, p) == Filter(a, p) + Filter(b, p)
  {
    if |a| > 0 {
      var head := if p(a[0]) then [a[0]] else [];
      calc {
        Filter(a + b, p);
        { assert (a + b)[0] == a[0] && (a + b)[1..] == a[1..] + b; }
        head + Filter(a[1..] + b, p);
        { FilterAppend(a[1..], b, p); }
        head + (Filter(a[1..], p) + Filter(b, p));
        (head + Filter(a[1..], p)) + Filter(b, p);
      }
    } else {
      assert a + b == b;
    }
  }

  /** Filtering by a test every element passes changes nothing. */
  lemma {:induction false} FilterKeepsAll<T(!new)>(s: seq<T>, p: T -> bool)
    requires forall i :: 0 <= i < |s| ==> p(s[i])
    ensures Filter(s, p) == s
  {
    if |s| > 0 {
      FilterKeepsAll(s[1..], p);
    }
  }

  // ---------------------------------------------------------------------------
  // Stable sorting
  // ---------------------------------------------------------------------------

  /**
   * `lt(a, b)` means "a goes strictly before b". A comparator that is consistent,
   * as both of the pages' comparators are, yields a strict weak order.
   */
  ghost predicate StrictWeakOrder<T(!new)>(lt: (T, T) -> bool) {
    && (forall a :: !lt(a, a))
    && (forall a, b, c :: lt(a, b) && lt(b, c) ==> lt(a, c))
    && (forall a, b, c :: lt(a, c) && !lt(a, b) ==> lt(b, c))
  }

  /** Neither goes before the other: the comparator returns 0. */
  predicate Tied<T>(lt: (T, T) -> bool, a: T, b: T) {
    !lt(a, b) && !lt(b, a)
  }

  ghost predicate Sorted<T>(s: seq<T>, lt: (T, T) -> bool) {
    forall i, j :: 0 <= i < j < |s| ==> !lt(s[j], s[i])
  }

  /** The elements of `s` tied with `e`, in their order in `s`. */
  function TiedWith<T>(s: seq<T>, lt: (T, T) -> bool, e: T): seq<T> {
    if |s| == 0 then []
    else (if Tied(lt, s[0], e) then [s[0]] else []) + TiedWith(s[1..], lt, e)
  }

  lemma {:induction false} TiedWithAppend<T>(a: seq<T>, b: seq<T>, lt: (T, T) -> bool, e: T)
    ensures TiedWith(a + b, lt, e) == TiedWith(a, lt, e) + TiedWith(b, lt, e)
  {
    if |a| > 0 {
      var head := if Tied(lt, a[0], e) then [a[0]] else [];
      calc {
        TiedWith(a + b, lt, e);
        { assert (a + b)[0] == a[0] && (a + b)[1..] == a[1..] + b; }
        head + TiedWith(a[1..] + b, lt, e);
        { TiedWithAppend(a[1..], b, lt, e); }
        head + (TiedWith(a[1..], lt, e) + TiedWith(b, lt, e));
        (head + TiedWith(a[1..], lt, e)) + TiedWith(b, lt, e);
      }
    } else {
      assert a + b == b;
    }
  }

  /** Sorting kept every group of tied elements in its input order. */
  ghost predicate StableFor<T(!new)>(r: seq<T>, s: seq<T>, lt: (T, T) -> bool) {
    forall e :: TiedWith(r, lt, e) == TiedWith(s, lt, e)
  }

  /** Puts `x` in front of the first element of `ys` that `x` does not come after. */
  function Insert<T>(x: T, ys: seq<T>, lt: (T, T) -> bool): (r: seq<T>)
    ensures multiset(r) == multiset(ys) + multiset{x}
    ensures |r| == |ys| + 1
  {
    if |ys| == 0 then [x]
    else if lt(ys[0], x) then
      assert ys == [ys[0]] + ys[1..];
      [ys[0]] + Insert(x, ys[1..], lt)
    else [x] + ys
  }

  /** The list `Array.prototype.sort` returns for a comparator that orders by `lt`. */
  function Sort<T>(s: seq<T>, lt: (T, T) -> bool): (r: seq<T>)
    ensures multiset(r) == multiset(s)
    ensures |r| == |s|
  {
    if |s| == 0 then []
    else
      assert s == [s[0]] + s[1..];
      Insert(s[0], Sort(s[1..], lt), lt)
  }

  lemma {:induction false} InsertSorted<T(!new)>(x: T, ys: seq<T>, lt: (T, T) -> bool)
    requires StrictWeakOrder(lt)
    requires Sorted(ys, lt)
    ensures Sorted(Insert(x, ys, lt), lt)
  {
    if |ys| > 0 {
      var r := Insert(x, ys, lt);
      if lt(ys[0], x) {
        var rest := Insert(x, ys[1..], lt);
        InsertSorted(x, ys[1..], lt);
        forall j | 0 < j < |r|
          ensures !lt(r[j], r[0])
        {
          assert r[j] == rest[j - 1];
          assert rest[j - 1] in multiset(rest);
          if rest[j - 1] != x {
            assert rest[j - 1] in ys[1..];
          }
        }
      } else {
        forall j | 0 < j < |r|
          ensures !lt(r[j], x)
        {
          assert r[j] == ys[j - 1];
          if j > 1 {
            assert !lt(ys[j - 1], ys[0]);
          }
        }
      }
    }
  }

  /** Tied elements keep their relative order when `x` is inserted. */
  lemma {:induction false} InsertStable<T(!new)>(x: T, ys: seq<T>, lt: (T, T) -> bool, e: T)
    requires StrictWeakOrder(lt)
    ensures TiedWith(Insert(x, ys, lt), lt, e) == TiedWith([x] + ys, lt, e)
  {
    if |ys| > 0 && lt(ys[0], x) {
      var y, rest := ys[0], ys[1..];
      var tx, ty := TiedWith([x], lt, e), TiedWith([y], lt, e);
      // y goes strictly before x, so they cannot both be tied with e
      assert [x][1..] == [] && [y][1..] == [] && TiedWith([], lt, e) == [];
      assert tx == (if Tied(lt, x, e) then [x] else []);
      assert ty == (if Tied(lt, y, e) then [y] else []);
      assert tx == [] || ty == [];
      calc {
        TiedWith(Insert(x, ys, lt), lt, e);
        TiedWith([y] + Insert(x, rest, lt), lt, e);
        { TiedWithAppend([y], Insert(x, rest, lt), lt, e); }
        ty + TiedWith(Insert(x, rest, lt), lt, e);
        { InsertStable(x, rest, lt, e); }
        ty + TiedWith([x] + rest, lt, e);
        { TiedWithAppend([x], rest, lt, e); }
        ty + (tx + TiedWith(rest, lt, e));
        tx + (ty + TiedWith(rest, lt, e));
        { TiedWithAppend([y], rest, lt, e); assert [y] + rest == ys; }
        tx + TiedWith(ys, lt, e);
        { TiedWithAppend([x], ys, lt, e); }
        TiedWith([x] + ys, lt, e);
      }
    }
  }

  /** Sorting yields a permutation ordered by `lt` that keeps tied elements in input order. */
  lemma {:induction false} SortCorrect<T(!new)>(s: seq<T>, lt: (T, T) -> bool)
    requires StrictWeakOrder(lt)
    ensures Sorted(Sort(s, lt), lt)
    ensures StableFor(Sort(s, lt), s, lt)
  {
    if |s| > 0 {
      var rest := Sort(s[1..], lt);
      SortCorrect(s[1..], lt);
      InsertSorted(s[0], rest, lt);
      forall e
        ensures TiedWith(Sort(s, lt), lt, e) == TiedWith(s, lt, e)
      {
        InsertStable(s[0], rest, lt, e);
        TiedWithAppend([s[0]], rest, lt, e);
        TiedWithAppend([s[0]], s[1..], lt, e);
        assert s == [s[0]] + s[1..];
      }
    }
  }
}

=== FILE: text.dfy ===
/**
 * String operations the pages rely on, with JavaScript's meaning:
 * `Number.prototype.toString()` on non-negative integers, `padStart(2, '0')`,
 * `toLowerCase`, `includes`, `trim`, and the relational `<` on strings.
 */
module Text {

  // ---------------------------------------------------------------------------
  // Decimal numerals
  // ---------------------------------------------------------------------------

  predicate IsDigit(c: char) {
    '0' <= c <= '9'
  }

  predicate AllDigits(s: string) {
    forall i :: 0 <= i < |s| ==> IsDigit(s[i])
  }

  function DigitChar(d: nat): (c: char)
    requires d < 10
    ensures IsDigit(c)
    ensures c as int - '0' as int == d
  {
    ('0' as int + d) as char
  }

  function DigitValue(c: char): nat
    requires IsDigit(c)
  {
    c as int - '0' as int
  }

  /** The shortest decimal numeral of `n`, as `n.toString()` writes it. */
  function Decimal(n: nat): (r: string)
    ensures |r| >= 1
    ensures AllDigits(r)
    ensures n < 10 <==> |r| == 1
    ensures 10 <= n < 100 ==> |r| == 2
    ensures n > 0 ==> r[0] != '0'
    ensures n == 0 ==> r == "0"
  {
    if n < 10 then [DigitChar(n)] else Decimal(n / 10) + [DigitChar(n % 10)]
  }

  /** The value of a numeral; leading zeros are allowed and the empty numeral reads as 0. */
  function ParseDecimal(s: string): nat
    requires AllDigits(s)
  {
    if |s| == 0 then 0 else 10 * ParseDecimal(s[..|s| - 1]) + DigitValue(s[|s| - 1])
  }

  /** Reading back what `Decimal` writes gives the number again. */
  lemma {:induction false} ParseDecimalOfDecimal(n: nat)
    ensures ParseDecimal(Decimal(n)) == n
  {
    var r := Decimal(n);
    if n >= 10 {
      ParseDecimalOfDecimal(n / 10);
      assert r[..|r| - 1] == Decimal(n / 10);
    }
  }

  /** A numeral without superfluous leading zeros is the one `Decimal` writes for its value. */
  lemma {:induction false} DecimalOfParseDecimal(s: string)
    requires AllDigits(s) && |s| >= 1
    requires |s| == 1 || s[0] != '0'
    ensures Decimal(ParseDecimal(s)) == s
  {
    if |s| > 1 {
      var p := s[..|s| - 1];
      DecimalOfParseDecimal(p);
      var n, q, d := ParseDecimal(s), ParseDecimal(p), DigitValue(s[|s| - 1]);
      assert n == 10 * q + d && d < 10;
      assert p[0] == s[0];
      assert q != 0;
      assert n / 10 == q && n % 10 == d;
      assert DigitChar(d) == s[|s| - 1];
      assert Decimal(n) == Decimal(q) + [DigitChar(d)];
      assert s == p + [s[|s| - 1]];
    }
  }

  /** Any two-digit numeral is the padded form of its value. */
  lemma Pad2OfParseDecimal(s: string)
    requires AllDigits(s) && |s| == 2
    ensures Pad2(ParseDecimal(s)) == s
  {
    if s[0] == '0' {
      assert ParseDecimal(s[..1]) == 0;
      assert s == "0" + [s[1]];
    } else {
      DecimalOfParseDecimal(s);
    }
  }

  /** `n.toString().padStart(2, '0')`: one leading zero for a single digit. */
  function Pad2(n: nat): (r: string)
    ensures AllDigits(r)
    ensures |r| >= 2
    ensures n < 100 ==> |r| == 2
    ensures ParseDecimal(r) == n
    ensures n < 10 ==> r[0] == '0'
    ensures n >= 10 ==> r[0] != '0' && r == Decimal(n)
  {
    ParseDecimalOfDecimal(n);
    if n < 10 then
      var r := "0" + Decimal(n);
      assert r[..|r| - 1] == "0";
      r
    else Decimal(n)
  }

  // ---------------------------------------------------------------------------
  // Case folding and substring search
  // ---------------------------------------------------------------------------

  predicate IsUpperAscii(c: char) {
    'A' <= c <= 'Z'
  }

  /** `toLowerCase` on one character: `A`..`Z` become `a`..`z`, everything else stays. */
  function LowerChar(c: char): (r: char)
    ensures !IsUpperAscii(r)
    ensures !IsUpperAscii(c) ==> r == c
    ensures IsUpperAscii(c) ==> r as int - 'a' as int == c as int - 'A' as int
  {
    if IsUpperAscii(c) then (c as int + 32) as char else c
  }

  /** `s.toLowerCase()` restricted to the ASCII letters. */
  function Lower(s: string): (r: string)
    ensures |r| == |s|
    ensures forall i :: 0 <= i < |s| ==> r[i] == LowerChar(s[i])
  {
    seq(|s|, i requires 0 <= i < |s| => LowerChar(s[i]))
  }

  /** Two characters that differ at most in the case of an ASCII letter. */
  predicate CaseVariants(a: char, b: char) {
    || a == b
    || (IsUpperAscii(a) && b as int == a as int + 32)
    || (IsUpperAscii(b) && a as int == b as int + 32)
  }

  /** Two texts lower-case to the same text exactly when they differ only in the case of ASCII letters. */
  lemma LowerEqualIffCaseVariants(s: string, t: string)
    ensures Lower(s) == Lower(t) <==> |s| == |t| && forall i :: 0 <= i < |s| ==> CaseVariants(s[i], t[i])
  {
  }

  predicate StartsWith(s: string, prefix: string) {
    |prefix| <= |s| && s[..|prefix|] == prefix
  }

  /** `hay.includes(needle)`, searched position by position from the left. */
  predicate Includes(hay: string, needle: string)
    ensures |needle| == 0 ==> Includes(hay, needle)
    ensures Includes(hay, needle) ==> |needle| <= |hay|
    decreases |hay|
  {
    StartsWith(hay, needle) || (|hay| > 0 && Includes(hay[1..], needle))
  }

  /** The independent meaning of `includes`: `needle` occurs at some offset of `hay`. */
  ghost predicate OccursAt(hay: string, needle: string, k: int) {
    0 <= k && k + |needle| <= |hay| && hay[k..k + |needle|] == needle
  }

  lemma {:induction false} IncludesIffOccurs(hay: string, needle: string)
    ensures Includes(hay, needle) <==> exists k :: OccursAt(hay, needle, k)
    decreases |hay|
  {
    if StartsWith(hay, needle) {
      assert OccursAt(hay, needle, 0);
    } else if |hay| == 0 {
    } else {
      IncludesIffOccurs(hay[1..], needle);
      if exists k :: OccursAt(hay, needle, k) {
        var k :| OccursAt(hay, needle, k);
        assert k > 0;
        assert hay[1..][k - 1..k - 1 + |needle|] == hay[k..k + |needle|];
        assert OccursAt(hay[1..], needle, k - 1);
      }
      if exists k :: OccursAt(hay[1..], needle, k) {
        var k :| OccursAt(hay[1..], needle, k);
        assert hay[1..][k..k + |needle|] == hay[k + 1..k + 1 + |needle|];
        assert OccursAt(hay, needle, k + 1);
      }
    }
  }

  // ---------------------------------------------------------------------------
  // Trimming
  // ---------------------------------------------------------------------------

  /** The characters `String.prototype.trim` removes: WhiteSpace and LineTerminator of ECMAScript. */
  predicate IsWhitespace(c: char) {
    || c == '\U{9}' || c == '\U{A}' || c == '\U{B}' || c == '\U{C}' || c == '\U{D}'
    || c == '\U{20}' || c == '\U{A0}' || c == '\U{1680}'
    || ('\U{2000}' <= c <= '\U{200A}')
    || c == '\U{2028}' || c == '\U{2029}' || c == '\U{202F}' || c == '\U{205F}'
    || c == '\U{3000}' || c == '\U{FEFF}'
  }

  predicate AllWhitespace(s: string) {
    forall i :: 0 <= i < |s| ==> IsWhitespace(s[i])
  }

  /** The length of the longest whitespace prefix of `s`. */
  function LeadingWhitespace(s: string): (k: nat)
    ensures k <= |s|
    ensures AllWhitespace(s[..k])
    ensures k < |s| ==> !IsWhitespace(s[k])
  {
    if |s| == 0 || !IsWhitespace(s[0]) then 0
    else
      var k := 1 + LeadingWhitespace(s[1..]);
      assert s[..k] == [s[0]] + s[1..][..k - 1];
      k
  }

  /** The length of the longest whitespace suffix of `s`. */
  function TrailingWhitespace(s: string): (k: nat)
    ensures k <= |s|
    ensures AllWhitespace(s[|s| - k..])
    ensures k < |s| ==> !IsWhitespace(s[|s| - k - 1])
  {
    if |s| == 0 || !IsWhitespace(s[|s| - 1]) then 0
    else
      var t := s[..|s| - 1];
      var j := TrailingWhitespace(t);
      var u := s[|s| - j - 1..];
      assert AllWhitespace(u) by {
        forall i | 0 <= i < |u|
          ensures IsWhitespace(u[i])
        {
          if i < j {
            assert u[i] == t[|t| - j..][i];
          }
        }
      }
      1 + j
  }

  /** `s.trim()`: `s` without its leading and trailing whitespace. */
  function Trim(s: string): (r: string)
    ensures |r| <= |s|
    ensures exists i, j :: 0 <= i <= j <= |s| && r == s[i..j] && AllWhitespace(s[..i]) && AllWhitespace(s[j..])
    ensures |r| > 0 ==> !IsWhitespace(r[0]) && !IsWhitespace(r[|r| - 1])
    ensures r == [] <==> AllWhitespace(s)
  {
    var i := LeadingWhitespace(s);
    var rest := s[i..];
    var j := TrailingWhitespace(rest);
    var r := rest[..|rest| - j];
    var e := i + |rest| - j;
    assert r == s[i..e] && AllWhitespace(s[..i]) && AllWhitespace(s[e..]) by {
      assert s[e..] == rest[|rest| - j..];
    }
    assert |r| > 0 ==> !IsWhitespace(r[0]) && !IsWhitespace(r[|r| - 1]) by {
      if |r| > 0 {
        assert r[0] == s[i] && r[|r| - 1] == rest[|rest| - j - 1];
      }
    }
    assert r == [] <==> AllWhitespace(s) by {
      if i < |s| {
        assert rest[0] == s[i] && !IsWhitespace(rest[0]);
        assert |r| > 0;
      } else {
        assert s[..i] == s;
      }
    }
    r
  }

  // ---------------------------------------------------------------------------
  // Ordering of strings
  // ---------------------------------------------------------------------------

  /** JavaScript's `a < b` on strings: the first differing character decides, and a proper prefix comes first. */
  predicate LexLess(a: string, b: string)
    ensures LexLess(a, b) ==> a != b
    ensures |a| < |b| && a == b[..|a|] ==> LexLess(a, b)
    ensures 0 < |a| && 0 < |b| && a[0] != b[0] ==> (LexLess(a, b) <==> a[0] < b[0])
  {
    if |b| == 0 then false
    else if |a| == 0 then true
    else if a[0] != b[0] then a[0] < b[0]
    else LexLess(a[1..], b[1..])
  }

  lemma {:induction false} LexLessIrreflexive(a: string)
    ensures !LexLess(a, a)
  {
    if |a| > 0 {
      LexLessIrreflexive(a[1..]);
    }
  }

  lemma {:induction false} LexLessTransitive(a: string, b: string, c: string)
    requires LexLess(a, b) && LexLess(b, c)
    ensures LexLess(a, c)
  {
    if |a| > 0 && a[0] == b[0] && b[0] == c[0] {
      LexLessTransitive(a[1..], b[1..], c[1..]);
    }
  }

  /**
   * `a` and `b` agree on their first `k` characters, `b` goes on past them,
   * and there `a` either ends or holds the smaller character.
   */
  predicate FirstDifference(a: string, b: string, k: nat) {
    k <= |a| && k < |b| && a[..k] == b[..k] && (k == |a| || a[k] < b[k])
  }

  /** `LexLess` is exactly the order decided at the first position where the strings part. */
  lemma LexLessFirstDifference(a: string, b: string)
    ensures LexLess(a, b) <==> exists k: nat :: FirstDifference(a, b, k)
  {
    if LexLess(a, b) {
      var k := LexLessWitness(a, b);
    } else if k: nat :| FirstDifference(a, b, k) {
      FirstDifferenceIsLess(a, b, k);
    }
  }

  /** The position at which `a < b` is decided. */
  lemma {:induction false} LexLessWitness(a: string, b: string) returns (k: nat)
    requires LexLess(a, b)
    ensures FirstDifference(a, b, k)
  {
    if |a| == 0 || a[0] != b[0] {
      k := 0;
    } else {
      var j := LexLessWitness(a[1..], b[1..]);
      k := j + 1;
      assert a[..k] == [a[0]] + a[1..][..j] && b[..k] == [b[0]] + b[1..][..j];
    }
  }

  /** A first difference in favour of `a` makes `a < b`. */
  lemma {:induction false} FirstDifferenceIsLess(a: string, b: string, k: nat)
    requires FirstDifference(a, b, k)
    ensures LexLess(a, b)
  {
    if k > 0 {
      assert a[0] == a[..k][0] == b[..k][0] == b[0];
      assert a[1..][..k - 1] == a[..k][1..] && b[1..][..k - 1] == b[..k][1..];
      FirstDifferenceIsLess(a[1..], b[1..], k - 1);
    }
  }

  /** Two mock titles with a common first word: the space-then-capital one comes first. */
  lemma SharedPrefixTitlesOrder()
    ensures LexLess("Check Palindrome", "Check for Anagrams")
    ensures !LexLess("Check for Anagrams", "Check Palindrome")
  {
    FirstDifferenceIsLess("Check Palindrome", "Check for Anagrams", 6);
    LexLessAsymmetric("Check Palindrome", "Check for Anagrams");
  }

  /** No two strings are each below the other. */
  lemma LexLessAsymmetric(a: string, b: string)
    requires LexLess(a, b)
    ensures !LexLess(b, a)
  {
    if LexLess(b, a) {
      LexLessTransitive(a, b, a);
      LexLessIrreflexive(a);
    }
  }

  /** The difficulty words sort as strings: `Easy`, then `Hard`, then `Medium`. */
  lemma DifficultyWordsOrder()
    ensures LexLess("Easy", "Hard") && LexLess("Hard", "Medium")
    ensures !LexLess("Medium", "Hard") && !LexLess("Hard", "Easy")
  {
  }

  /** Any two different strings are ordered one way or the other. */
  lemma {:induction false} LexLessTotal(a: string, b: string)
    requires a != b
    ensures LexLess(a, b) || LexLess(b, a)
  {
    if |a| > 0 && |b| > 0 && a[0] == b[0] {
      assert a == [a[0]] + a[1..] && b == [b[0]] + b[1..];
      LexLessTotal(a[1..], b[1..]);
    }
  }
}
